=== FILE: README.md ===
# Video player model

A Dafny model of a single-user, command-line video player written in Java.
The player keeps the following state:

- a catalog of videos loaded from `title | id | tag, tag` lines;
- the video that is playing and whether it is paused;
- named playlists, looked up and kept unique ignoring case;
- a moderation flag per video, with a reason.

A command dispatcher maps a list of tokens to one player operation.
Every operation returns the messages it would print, as values of a
`Message` datatype, instead of printing text.

The modules follow the Java classes:

| file | module | models |
|---|---|---|
| `wrappers.dfy` | `Wrappers` | `Option`, which stands for a Java `null` |
| `text.dfy` | `Text` | the `java.lang.String` operations the player uses: `toUpperCase`/`toLowerCase`, `equalsIgnoreCase`, `contains`, `strip`, `split` on one character, `compareTo` |
| `lists.dfy` | `Lists` | the `java.util.List` operations the player uses: `remove(Object)`, `sort` by a string key, duplicate-freedom |
| `video.dfy` | `Videos` | class `Video` |
| `video_playlist.dfy` | `Playlists` | class `VideoPlaylist` |
| `video_library.dfy` | `Library` | the catalog line parser and class `VideoLibrary` |
| `messages.dfy` | `Messages` | the outcomes the player and the dispatcher report |
| `video_player.dfy` | `Player` | class `VideoPlayer` |
| `command_parser.dfy` | `Commands` | `CommandParser.executeCommand` |

Videos are objects, and the player compares them by reference, as the
Java code does. The catalog invariant `videos[id].id == id`
(`Library.VideoLibrary.Valid`) makes reference identity the same as
identity by id.

`Player.VideoPlayer.Valid` is the player's invariant. Every operation
keeps it. It holds these facts:

- paused implies that a video is current;
- the current video is a catalog video and is not flagged;
- every playlist is stored under its own name;
- stored names are unique ignoring case;
- no playlist holds a video twice.

Playlist operations are specified through `Contents()`, the map from
stored name to video list. Case-insensitive lookups are specified through
`KeyFor(name)`, the stored name that equals `name` ignoring case.

## Model

| member | source | states |
|---|---|---|
| Text.EqualsIgnoreCaseIffSameUpper | java/src/main/java/com/google/CommandParser.java:25 | two strings are equal ignoring case exactly when their upper-case forms are equal, so matching the upper-cased verb is matching it ignoring case |
| Text.EqualsIgnoreCaseIsEquivalence | java/src/main/java/com/google/VideoPlayer.java:120-127 | comparing names ignoring case is reflexive, symmetric and transitive, so "at most one stored name matches" is well defined |
| Text.ContainsIffOccurs | java/src/main/java/com/google/VideoPlayer.java:238 | `contains` holds exactly when the term occurs at some position of the title |
| Text.StripRemovesOnlyOuterWhitespace | java/src/main/java/com/google/VideoLibrary.java:24-25 | `strip` returns a contiguous slice of its input with no whitespace at either end |
| Text.StripKeepsStripped | java/src/main/java/com/google/VideoLibrary.java:24-25 | `strip` leaves a string without outer whitespace unchanged |
| Text.JoinFields | java/src/main/java/com/google/VideoLibrary.java:23 | joining the separator-delimited fields of a string with the separator gives the string back |
| Text.FieldsOfJoin | java/src/main/java/com/google/VideoLibrary.java:23 | the fields of a join of separator-free strings are those strings |
| Text.SplitAvoidsSeparator | java/src/main/java/com/google/VideoLibrary.java:23-25 | no piece that `split` returns contains the separator, so a title, id or tag list never holds a `|` |
| Text.SplitOfJoin | java/src/main/java/com/google/VideoLibrary.java:23-28 | `split` (which drops trailing empty fields) of a join of separator-free strings whose last one is non-empty gives the strings back |
| Text.LessOrEqualTotal | java/src/main/java/com/google/VideoPlayer.java:26 | the `compareTo` order on strings is total |
| Text.LessOrEqualTransitive | java/src/main/java/com/google/VideoPlayer.java:26 | the `compareTo` order on strings is transitive |
| Text.LessOrEqualAntisymmetric | java/src/main/java/com/google/VideoPlayer.java:26 | the `compareTo` order on strings is antisymmetric |
| Lists.DistinctElementCount | java/src/main/java/com/google/VideoPlayer.java:71-79 | a duplicate-free list has as many distinct elements as entries, so the random draw ranges over exactly the unflagged ids |
| Lists.RemoveFirstAt | java/src/main/java/com/google/VideoPlayer.java:203 | `remove(Object)` deletes the element at its first occurrence and keeps the rest in order |
| Lists.RemoveFirstTakesOneCopy | java/src/main/java/com/google/VideoPlayer.java:203 | `remove(Object)` takes away exactly one copy of the element |
| Lists.RemoveFirstFromDistinct | java/src/main/java/com/google/VideoPlayer.java:200-203 | on a duplicate-free list, `remove(Object)` keeps it duplicate-free, shortens it by one and removes exactly that element |
| Lists.InsertKeepsOrder | java/src/main/java/com/google/VideoPlayer.java:26 | inserting into a list sorted by key keeps it sorted |
| Lists.SortByIsSortedPermutation | java/src/main/java/com/google/VideoPlayer.java:254 | sorting by title gives a list ordered by title that is a permutation of the input |
| Lists.PermutationOfDistinct | java/src/main/java/com/google/VideoPlayer.java:254 | a permutation of a duplicate-free list is duplicate-free and has the same elements |
| Videos.Video.constructor | java/src/main/java/com/google/Video.java:9-20 | a new video has the given title, id and tags, is not flagged and has no reason |
| Videos.Video.Flag | java/src/main/java/com/google/Video.java:48-54 | flagging sets the flag, and the reason becomes the given one or "Not supplied" when none is given; title, id and tags are constant |
| Videos.Video.Unflag | java/src/main/java/com/google/VideoPlayer.java:311 | unflagging clears the flag |
| Playlists.VideoPlaylist.constructor | java/src/main/java/com/google/VideoPlaylist.java:9-15 | a new playlist has the given name and no videos |
| Playlists.VideoPlaylist.Append | java/src/main/java/com/google/VideoPlayer.java:152 | `add` on the playlist's live list appends at the end |
| Playlists.VideoPlaylist.Remove | java/src/main/java/com/google/VideoPlayer.java:203 | `remove` on the playlist's live list drops the first occurrence |
| Playlists.VideoPlaylist.Clear | java/src/main/java/com/google/VideoPlayer.java:215 | `clear` on the playlist's live list empties it |
| Library.ParseFormatRoundTrip | java/src/main/java/com/google/VideoLibrary.java:23-30 | parsing the catalog line written for a record whose fields carry no separators and no outer whitespace gives the record back: title is field 0 stripped, id field 1 stripped, tags field 2 split on `,` and stripped, none when field 2 is absent |
| Library.TagsRoundTrip | java/src/main/java/com/google/VideoLibrary.java:27-28 | splitting a tags field on `,` and stripping each piece gives the tags back, in order |
| Library.FieldsOfLine | java/src/main/java/com/google/VideoLibrary.java:23 | a catalog line splits on `\|` into title, id and, when there are tags, the tags field |
| Library.Index | java/src/main/java/com/google/VideoLibrary.java:32 | the map built by `put` stores each record under its own id |
| Library.IndexIds | java/src/main/java/com/google/VideoLibrary.java:21-33 | the catalog holds exactly the ids of the lines |
| Library.IndexKeepsLast | java/src/main/java/com/google/VideoLibrary.java:32 | for an id on several lines, the last line wins |
| Library.VideoLibrary.constructor | java/src/main/java/com/google/VideoLibrary.java:17-33 | the loader builds one new unflagged video per catalog id, carrying the title, id and tags of the last line with that id, each stored under its own id |
| Library.VideoLibrary.StoredUnderOwnId | java/src/main/java/com/google/VideoLibrary.java:32 | a stored video is found again under its own id |
| Library.VideoLibrary.GetVideo | java/src/main/java/com/google/VideoLibrary.java:46-48 | the stored video with that id, and null exactly when the id is unknown |
| Library.VideoLibrary.GetVideos | java/src/main/java/com/google/VideoLibrary.java:41-43 | a new list holding every stored video exactly once and nothing else |
| Player.ListingsKeepTitleOrder | java/src/main/java/com/google/VideoPlayer.java:26-33 | listing videos sorted by title gives listings sorted by title |
| Player.DeleteLoopAsWrittenEffect | java/src/main/java/com/google/VideoPlayer.java:224-227 | with exactly one name matching, the loop as written removes that name and nothing else, and its iterator throws exactly when the name is not the last key |
| Player.DeletingAllButTheLastThrows | java/src/main/java/com/google/VideoPlayer.java:224-227 | with playlists "a" and "b", deleting "a" removes it and then throws |
| Player.VideoPlayer.constructor | java/src/main/java/com/google/VideoPlayer.java:14-17 | a new player has the loaded catalog: each id with the title and tags of the last line carrying it, every video newly allocated, unflagged and without a reason. It has no current video, is not paused and has no playlists |
| Player.VideoPlayer.KeyForIsTheMatch | java/src/main/java/com/google/VideoPlayer.java:120-127 | any stored name that equals the requested one ignoring case is the unique one the lookup finds |
| Player.VideoPlayer.NumberOfVideos | java/src/main/java/com/google/VideoPlayer.java:19-21 | reports the number of catalog videos |
| Player.VideoPlayer.ShowAllVideos | java/src/main/java/com/google/VideoPlayer.java:23-35 | nothing for an empty catalog; otherwise every catalog video exactly once, ordered by title, each with its flag and reason |
| Player.VideoPlayer.PlayVideo | java/src/main/java/com/google/VideoPlayer.java:37-55 | silent on an empty catalog; an unknown or flagged video is refused and nothing changes; otherwise the video becomes current and unpaused, after a stop message for the previous one |
| Player.VideoPlayer.StopVideo | java/src/main/java/com/google/VideoPlayer.java:57-65 | an error when nothing is current; afterwards nothing is current and nothing is paused |
| Player.VideoPlayer.UnflaggedIds | java/src/main/java/com/google/VideoPlayer.java:71-75 | the ids of exactly the unflagged catalog videos, each once |
| Player.VideoPlayer.PlayRandomVideo | java/src/main/java/com/google/VideoPlayer.java:67-81 | with no unflagged video, reports none available and changes nothing; otherwise reports stopping the previous video, if any, and plays an unflagged video unpaused |
| Player.VideoPlayer.PauseVideo | java/src/main/java/com/google/VideoPlayer.java:83-93 | an error and no change when nothing is current; otherwise paused, reporting whether it already was |
| Player.VideoPlayer.ContinueVideo | java/src/main/java/com/google/VideoPlayer.java:95-106 | errors when nothing is current or it is not paused; otherwise resumes the same video, so a pause followed by a continue plays the same video again |
| Player.VideoPlayer.ShowPlaying | java/src/main/java/com/google/VideoPlayer.java:108-117 | the current video, never flagged, with its paused state, or that nothing plays |
| Player.VideoPlayer.RetrievePlaylist | java/src/main/java/com/google/VideoPlayer.java:120-127 | the playlist stored under a name equal to the requested one ignoring case, and null exactly when there is none |
| Player.VideoPlayer.CreatePlaylist | java/src/main/java/com/google/VideoPlayer.java:129-136 | refused when a name equal ignoring case exists; otherwise adds one new empty playlist under the name as typed, leaving the others |
| Player.VideoPlayer.AddVideoToPlaylist | java/src/main/java/com/google/VideoPlayer.java:138-159 | checks playlist, then video, then flag, then presence, changing nothing on a refusal; otherwise appends the video to that playlist only |
| Player.VideoPlayer.ShowAllPlaylists | java/src/main/java/com/google/VideoPlayer.java:161-168 | that there are none, or every stored name once, in ascending order |
| Player.VideoPlayer.ShowPlaylist | java/src/main/java/com/google/VideoPlayer.java:170-188 | an error for a missing playlist; otherwise its videos in order, each with its flag and reason |
| Player.VideoPlayer.RemoveFromPlaylist | java/src/main/java/com/google/VideoPlayer.java:190-208 | checks playlist, then video, then membership, changing nothing on a refusal; otherwise removes exactly that video from that playlist, keeping the others in order |
| Player.VideoPlayer.ClearPlaylist | java/src/main/java/com/google/VideoPlayer.java:210-218 | an error for a missing playlist; otherwise that playlist is empty and still exists |
| Player.VideoPlayer.DeletePlaylist | java/src/main/java/com/google/VideoPlayer.java:220-230 | an error for a missing playlist; otherwise removes the one playlist matching ignoring case and leaves every other |
| Player.VideoPlayer.MatchingVideos | java/src/main/java/com/google/VideoPlayer.java:233-254 | exactly the unflagged catalog videos whose title contains the term ignoring case (or whose tags match it), each once, ordered by title |
| Player.VideoPlayer.SearchVideosBy | java/src/main/java/com/google/VideoPlayer.java:232-280 | none available on an empty catalog; no results, or the results, and with a choice between 1 and their number the chosen result, which matches the term, plays after the previous video is reported stopped; any other choice changes nothing |
| Player.VideoPlayer.PlayChosen | java/src/main/java/com/google/VideoPlayer.java:267-268 | plays result number `choice` when it is between 1 and the number of results; otherwise changes nothing |
| Player.VideoPlayer.FlagVideo | java/src/main/java/com/google/VideoPlayer.java:282-302 | silent on an empty catalog; refuses an unknown or flagged video, changing nothing; otherwise stops it when current and flags it with the reason or "Not supplied"; no other video changes |
| Player.VideoPlayer.AllowVideo | java/src/main/java/com/google/VideoPlayer.java:304-317 | silent on an empty catalog; refuses an unknown or unflagged video; otherwise clears the flag; playback and other videos are untouched |
| Commands.Dispatch | java/src/main/java/com/google/CommandParser.java:25-155 | a verb outside the switch is the invalid command; a known verb with fewer argument tokens than it needs is that verb's usage message |
| Commands.Parse | java/src/main/java/com/google/CommandParser.java:17-25 | no tokens or an unknown upper-cased verb is the invalid command; a known verb without its arguments is that verb's usage message |
| Commands.DispatchIgnoresExtraArguments | java/src/main/java/com/google/CommandParser.java:26-146 | argument tokens beyond those a verb reads change nothing |
| Commands.ParseIgnoresVerbCase | java/src/main/java/com/google/CommandParser.java:25 | verbs equal ignoring case dispatch the same way |
| Commands.ParseIgnoresExtraTokens | java/src/main/java/com/google/CommandParser.java:26-146 | tokens beyond those a verb reads change nothing; argument-free verbs ignore everything after the verb |
| Commands.FlagVideoRouting | java/src/main/java/com/google/CommandParser.java:127-138 | FLAG_VIDEO with id and reason flags with that reason, with only an id flags with no reason, and with neither is a usage error |
| Commands.ParseTakesArgumentsInOrder | java/src/main/java/com/google/CommandParser.java:32-80 | PLAY takes token 1; ADD_TO_PLAYLIST and REMOVE_FROM_PLAYLIST take tokens 1 and 2 |
| Commands.Perform | java/src/main/java/com/google/CommandParser.java:26-155 | the switch: keeps the player invariant; an invalid command, a usage error and HELP give their message; every command has the effect `Effect` gives it, and `Kept` says the rest is unchanged: a command that does not touch playback, the playlists or the flags leaves that part as it was, so a report changes nothing |
| Commands.PerformReport | java/src/main/java/com/google/CommandParser.java:26-109 | NUMBER_OF_VIDEOS, SHOW_ALL_VIDEOS, SHOW_PLAYING, SHOW_PLAYLIST and SHOW_ALL_PLAYLISTS change nothing: playback, playlists and flags are as they were |
| Commands.PerformPlayback | java/src/main/java/com/google/CommandParser.java:32-50 | PLAY plays a playable video unpaused and otherwise changes nothing; PLAY_RANDOM plays an unflagged video, or changes nothing when there is none; STOP clears playback; PAUSE and CONTINUE keep the current video, paused or not. Playlists and flags are unchanged |
| Commands.PerformOnPlaylists | java/src/main/java/com/google/CommandParser.java:54-98 | CREATE adds one empty playlist unless the name is taken ignoring case, and otherwise leaves every playlist as it was; DELETE removes the matching playlist and leaves the others' videos. Playback and flags are unchanged |
| Commands.PerformOnPlaylistVideos | java/src/main/java/com/google/CommandParser.java:63-89 | ADD appends the video and REMOVE deletes its first copy when allowed, else the playlist stays; CLEAR empties the matching playlist. The set of playlists, playback and flags are unchanged |
| Commands.PerformSearch | java/src/main/java/com/google/CommandParser.java:110-126 | playlists and flags are unchanged; a choice below 1 leaves playback as it was; otherwise either playback stays or a video matching the term plays |
| Commands.PerformModeration | java/src/main/java/com/google/CommandParser.java:127-146 | FLAG_VIDEO leaves a catalog video flagged and not current; a newly flagged one gets the given or default reason and stops playback (no current video, not paused) when it was current; an already flagged one keeps its reason and playback; no other video's flag changes. ALLOW_VIDEO leaves the video unflagged, and one that was not flagged keeps its reason; the other videos and playback stay as they were. Playlists are unchanged |
| Commands.ExecuteCommand | java/src/main/java/com/google/CommandParser.java:17-156 | parses the tokens and performs the command: the same invariant, messages, per-command effect (`Effect`) and untouched parts (`Kept`) as `Perform` for `Parse(tokens)` |

## Left out

- Reading the catalog from `videos.txt` and the handling of a missing file are not modelled. The library constructor takes the lines as a sequence.
- The random number of `playRandomVideo` is the `index` parameter. Its precondition is the contract of `nextInt(bound)`.
- The number typed after a search is the `choice` parameter. Input that is not a number arrives as 0.
- Printed text is not modelled; each message is a `Message` value that carries the data it shows. So the rendering of a video through `%s`, for which the shown `Video` class has no `toString`, is a `Listing` value.
- `getHelp` prints fixed text and is the single `HelpText` message.
- Case mapping, `equalsIgnoreCase` and `strip` are ASCII only. Java's Unicode case mapping and Unicode whitespace are not modelled.
- Text.LessOrEqual: orders strings by Unicode scalar value, while `String.compareTo`, which orders the playlist names and the title sort, compares UTF-16 code units. The two orders differ only between a supplementary character and a character in U+E000–U+FFFF.
- Library.VideoLibrary.constructor: requires every catalog line to split into at least a title and an id field. On a shorter line the loader throws an uncaught `ArrayIndexOutOfBoundsException` at `split[0]` or `split[1]`, and no player is built; that failure is not modelled. A line made only of separators, such as `|`, splits into no fields at all, because `split` drops trailing empty fields, so it fails at `split[0]`. Player.VideoPlayer.constructor has the same requirement.
- Results are only specified as sorted by title and duplicate-free with the right members. The stable-sort order among equal titles is not modelled, and neither is the `HashMap` order of `getVideos`. Which unflagged video a given random index picks is therefore left open too.
- `Video.tagExists` and `Video.unflag` are called by the player but are not part of the shown `Video` class. `tagExists` is the player's `tagExists` parameter, a given predicate over a video's tags and the search term.
- Videos.Video.Unflag: states only that the flag is cleared, because its code is not shown. Its body leaves the reason as it was.
- Player.VideoPlayer.DeletePlaylist: models the intended effect, the removal of the single matching playlist. The code as written can throw after the removal; see Findings.
- Player.VideoPlayer.PlayRandomVideo: states that an unflagged video plays, not which one, because the order of the candidate list comes from the `HashMap`.
- Commands.ExecuteCommand: states the messages only for an invalid command, a usage error and HELP. The messages of the other commands are stated by the contracts of the player operations they call.
- Commands.PerformSearch: for a choice of 1 or more, states only that playback is unchanged or that a matching video plays, not which result. `Player.VideoPlayer.SearchVideosBy` states which one.
- Commands.ExecuteCommand: only catches `ArrayIndexOutOfBoundsException`. Whether a missing argument reaches the usage message depends on the caller's `List` type, which is not part of this model. The model gives the intended usage message.
- EXIT is not one of the verbs `executeCommand` dispatches. Following the code, it is the invalid command here. Ending the program belongs to its caller, which is not part of this model.

## Findings

| source | as written | input that shows it | evidently intended | confidence | as-written member | corrected member |
|---|---|---|---|---|---|---|
| java/src/main/java/com/google/VideoPlayer.java:224-227 | removes the matching key from the `TreeMap` while iterating its `keySet`, so the iterator's next step throws `ConcurrentModificationException` unless the removed name was the last key; the "Deleted playlist" message is then never printed | playlists "a" and "b", then `DELETE_PLAYLIST a` | remove the one matching playlist and report it | not executed; high | Player.DeleteLoopAsWrittenEffect | Player.VideoPlayer.DeletePlaylist |

=== FILE: command_parser.dfy ===
/**
 * Command dispatch: a line of input, already split into tokens, is matched
 * by its first token (ignoring case) against the known verbs, and the
 * arguments the verb needs are taken from the following tokens.
 */
module Commands {
  import opened Wrappers
  import opened Text
  import Messages
  import Player
  import Lists
  import Videos

  /** What executeCommand does with a token list. */
  datatype Command =
    | NumberOfVideos
    | ShowAllVideos
    | Play(id: string)
    | PlayRandom
    | Stop
    | Pause
    | Continue
    | ShowPlaying
    | CreatePlaylist(name: string)
    | AddToPlaylist(name: string, id: string)
    | RemoveFromPlaylist(name: string, id: string)
    | ClearPlaylist(name: string)
    | DeletePlaylist(name: string)
    | ShowPlaylist(name: string)
    | ShowAllPlaylists
    | SearchVideos(term: string)
    | SearchVideosWithTag(tag: string)
    | FlagVideo(id: string, reason: Option<string>)
    | AllowVideo(id: string)
    | Help
      /** A known verb without the arguments it needs: its usage message. */
    | Usage(verb: string)
      /** No tokens, or a verb that is not known: the generic message. */
    | Invalid

  /** The verbs of the switch, upper case. EXIT is not among them. */
  const Verbs: set<string> := {
    "NUMBER_OF_VIDEOS", "SHOW_ALL_VIDEOS", "PLAY", "PLAY_RANDOM", "STOP", "PAUSE",
    "CONTINUE", "SHOW_PLAYING", "CREATE_PLAYLIST", "ADD_TO_PLAYLIST",
    "REMOVE_FROM_PLAYLIST", "CLEAR_PLAYLIST", "DELETE_PLAYLIST", "SHOW_PLAYLIST",
    "SHOW_ALL_PLAYLISTS", "SEARCH_VIDEOS", "SEARCH_VIDEOS_WITH_TAG", "FLAG_VIDEO",
    "ALLOW_VIDEO", "HELP"
  }

  /** How many argument tokens a verb cannot do without. */
  function Arity(verb: string): nat {
    if verb in {"ADD_TO_PLAYLIST", "REMOVE_FROM_PLAYLIST"} then 2
    else if verb in {"PLAY", "CREATE_PLAYLIST", "CLEAR_PLAYLIST", "DELETE_PLAYLIST", "SHOW_PLAYLIST",
                     "SEARCH_VIDEOS", "SEARCH_VIDEOS_WITH_TAG", "FLAG_VIDEO", "ALLOW_VIDEO"} then 1
    else 0
  }

  /** How many tokens, verb included, a verb ever reads: FLAG_VIDEO reads an optional reason. */
  function Reads(verb: string): nat {
    if verb == "FLAG_VIDEO" then 3 else Arity(verb) + 1
  }

  /** The switch of executeCommand: the upper-cased verb and the tokens after it. */
  function Dispatch(verb: string, args: seq<string>): (c: Command)
    ensures c.Invalid? <==> verb !in Verbs
    ensures c.Usage? <==> verb in Verbs && |args| < Arity(verb)
    ensures c.Usage? ==> c.verb == verb
  {
    var n := |args|;
    if verb == "NUMBER_OF_VIDEOS" then NumberOfVideos
    else if verb == "SHOW_ALL_VIDEOS" then ShowAllVideos
    else if verb == "PLAY" then (if n > 0 then Play(args[0]) else Usage(verb))
    else if verb == "PLAY_RANDOM" then PlayRandom
    else if verb == "STOP" then Stop
    else if verb == "PAUSE" then Pause
    else if verb == "CONTINUE" then Continue
    else if verb == "SHOW_PLAYING" then ShowPlaying
    else if verb == "CREATE_PLAYLIST" then (if n > 0 then CreatePlaylist(args[0]) else Usage(verb))
    else if verb == "ADD_TO_PLAYLIST" then (if n > 1 then AddToPlaylist(args[0], args[1]) else Usage(verb))
    else if verb == "REMOVE_FROM_PLAYLIST" then (if n > 1 then RemoveFromPlaylist(args[0], args[1]) else Usage(verb))
    else if verb == "CLEAR_PLAYLIST" then (if n > 0 then ClearPlaylist(args[0]) else Usage(verb))
    else if verb == "DELETE_PLAYLIST" then (if n > 0 then DeletePlaylist(args[0]) else Usage(verb))
    else if verb == "SHOW_PLAYLIST" then (if n > 0 then ShowPlaylist(args[0]) else Usage(verb))
    else if verb == "SHOW_ALL_PLAYLISTS" then ShowAllPlaylists
    else if verb == "SEARCH_VIDEOS" then (if n > 0 then SearchVideos(args[0]) else Usage(verb))
    else if verb == "SEARCH_VIDEOS_WITH_TAG" then (if n > 0 then SearchVideosWithTag(args[0]) else Usage(verb))
    else if verb == "FLAG_VIDEO" then
      (if n > 1 then FlagVideo(args[0], Some(args[1]))
       else if n > 0 then FlagVideo(args[0], None)
       else Usage(verb))
    else if verb == "ALLOW_VIDEO" then (if n > 0 then AllowVideo(args[0]) else Usage(verb))
    else if verb == "HELP" then Help
    else Invalid
  }

  /** executeCommand on a token list: no tokens is the invalid command, otherwise the verb is upper-cased. */
  function Parse(tokens: seq<string>): (c: Command)
    ensures c.Invalid? <==> tokens == [] || ToUpper(tokens[0]) !in Verbs
    ensures c.Usage? <==> tokens != [] && ToUpper(tokens[0]) in Verbs && |tokens| <= Arity(ToUpper(tokens[0]))
    ensures c.Usage? ==> c.verb == ToUpper(tokens[0])
  {
    if tokens == [] then Invalid else Dispatch(ToUpper(tokens[0]), tokens[1..])
  }

  /** Verbs that differ only in case dispatch the same way. */
  lemma ParseIgnoresVerbCase(verb: string, other: string, args: seq<string>)
    requires EqualsIgnoreCase(verb, other)
    ensures Parse([verb] + args) == Parse([other] + args)
  {
    EqualsIgnoreCaseIffSameUpper(verb, other);
    assert ([verb] + args)[1..] == args == ([other] + args)[1..];
  }

  /** Arguments after the ones a verb reads change nothing. */
  lemma DispatchIgnoresExtraArguments(verb: string, args: seq<string>)
    requires |args| >= Reads(verb) - 1
    ensures Dispatch(verb, args) == Dispatch(verb, args[..Reads(verb) - 1])
  {
    var k := Reads(verb) - 1;
    assert forall i :: 0 <= i < k ==> args[..k][i] == args[i];
  }

  /** Tokens after the ones a verb reads change nothing; argument-free verbs ignore all that follows. */
  lemma ParseIgnoresExtraTokens(tokens: seq<string>)
    requires tokens != [] && |tokens| >= Reads(ToUpper(tokens[0]))
    ensures Parse(tokens) == Parse(tokens[..Reads(ToUpper(tokens[0]))])
  {
    var verb := ToUpper(tokens[0]);
    var k := Reads(verb);
    DispatchIgnoresExtraArguments(verb, tokens[1..]);
    assert tokens[..k][0] == tokens[0];
    assert tokens[..k][1..] == tokens[1..][..k - 1];
  }

  /** FLAG_VIDEO takes an id and an optional reason, and without an id it is a usage error. */
  lemma FlagVideoRouting(verb: string, id: string, reason: string, rest: seq<string>)
    requires ToUpper(verb) == "FLAG_VIDEO"
    ensures Parse([verb, id, reason] + rest) == FlagVideo(id, Some(reason))
    ensures Parse([verb, id]) == FlagVideo(id, None)
    ensures Parse([verb]) == Usage("FLAG_VIDEO")
  {
    var t := [verb, id, reason] + rest;
    assert t[0] == verb && t[1] == id && t[2] == reason;
  }

  /** The arguments a known verb needs are exactly its first tokens after the verb. */
  lemma ParseTakesArgumentsInOrder(verb: string, a: string, b: string, rest: seq<string>)
    ensures ToUpper(verb) == "PLAY" ==> Parse([verb, a] + rest) == Play(a)
    ensures ToUpper(verb) == "ADD_TO_PLAYLIST" ==> Parse([verb, a, b] + rest) == AddToPlaylist(a, b)
    ensures ToUpper(verb) == "REMOVE_FROM_PLAYLIST" ==> Parse([verb, a, b] + rest) == RemoveFromPlaylist(a, b)
  {
    var t1 := [verb, a] + rest;
    var t2 := [verb, a, b] + rest;
    assert t1[0] == verb && t1[1] == a;
    assert t2[0] == verb && t2[1] == a && t2[2] == b;
  }

  /** Playback is as it was. */
  twostate predicate PlaybackKept(p: Player.VideoPlayer)
    reads p
  {
    p.current == old(p.current) && p.paused == old(p.paused)
  }

  /** Every playlist, and the map holding them, is as it was. */
  twostate predicate PlaylistsKept(p: Player.VideoPlayer)
    reads p, p.playlists.Values
  {
    p.playlists == old(p.playlists) && unchanged(p.playlists.Values)
  }

  /** Every catalog video's flag and reason is as it was. */
  twostate predicate FlagsKept(p: Player.VideoPlayer)
    reads p.library.videos.Values
  {
    unchanged(p.library.videos.Values)
  }

  /** The commands that change playback. */
  predicate ChangesPlayback(c: Command) {
    c.Play? || c.PlayRandom? || c.Stop? || c.Pause? || c.Continue? || c.SearchVideos? || c.SearchVideosWithTag?
    || c.FlagVideo?
  }

  /** The commands that change playlists. */
  predicate ChangesPlaylists(c: Command) {
    c.CreatePlaylist? || c.DeletePlaylist? || c.AddToPlaylist? || c.RemoveFromPlaylist? || c.ClearPlaylist?
  }

  /** The commands that change flags. */
  predicate ChangesFlags(c: Command) {
    c.FlagVideo? || c.AllowVideo?
  }

  /** What a command leaves alone: every part of the player it does not change is as it was. */
  twostate predicate Kept(p: Player.VideoPlayer, c: Command)
    reads p, p.playlists.Values, p.library.videos.Values
  {
    && (!ChangesPlayback(c) ==> PlaybackKept(p))
    && (!ChangesPlaylists(c) ==> PlaylistsKept(p))
    && (!ChangesFlags(c) ==> FlagsKept(p))
  }

  /**
   * What each command does to the part of the player it changes: `old` is
   * the state before it runs, and `choice` is the number typed after a
   * search. The rest of the player is as `Kept` says.
   */
  twostate predicate Effect(p: Player.VideoPlayer, c: Command, choice: int)
    reads p, p.playlists.Values, p.library.videos.Values
  {
    match c
    // Playback
    case Play(id) =>
      if old(p.Playable(id)) then p.current == p.library.videos[id] && !p.paused else PlaybackKept(p)
    case PlayRandom =>
      if |old(p.Unflagged())| > 0 then p.current != null && p.current.id in p.Unflagged() && !p.paused
      else PlaybackKept(p)
    case Stop => p.current == null && !p.paused
    case Pause => p.current == old(p.current) && (p.current != null ==> p.paused)
    case Continue => p.current == old(p.current) && !p.paused
    // Playlists
    case CreatePlaylist(name) => Created(p, name)
    case AddToPlaylist(name, id) => Added(p, name, id)
    case RemoveFromPlaylist(name, id) => Removed(p, name, id)
    case ClearPlaylist(name) => Cleared(p, name)
    case DeletePlaylist(name) => Deleted(p, name)
    // Search: a choice below 1 leaves playback; otherwise either playback stays or a match plays
    case SearchVideos(term) =>
      && (choice < 1 ==> PlaybackKept(p))
      && (PlaybackKept(p) || (p.current != null && !p.paused && p.Matches(p.current, term, Player.ByTitle)))
    case SearchVideosWithTag(tag) =>
      && (choice < 1 ==> PlaybackKept(p))
      && (PlaybackKept(p) || (p.current != null && !p.paused && p.Matches(p.current, tag, Player.ByTag)))
    // Moderation
    case FlagVideo(id, reason) => Flagged(p, id, reason)
    case AllowVideo(id) => Allowed(p, id)
    // Reports change nothing, which `Kept` already says
    case _ => true
  }

  /** CREATE_PLAYLIST: nothing changes when the name is taken ignoring case; otherwise one new, empty playlist. */
  twostate predicate Created(p: Player.VideoPlayer, name: string)
    reads p, p.playlists.Values
  {
    if old(p.KeyFor(name)).Some? then p.playlists == old(p.playlists) && p.Contents() == old(p.Contents())
    else name in p.playlists && p.Contents() == old(p.Contents())[name := []]
  }

  /** ADD_TO_PLAYLIST: the video is appended to the matching playlist when it may be; otherwise nothing changes. */
  twostate predicate Added(p: Player.VideoPlayer, name: string, id: string)
    reads p, p.playlists.Values, p.library.videos.Values
  {
    var before := old(p.Contents());
    var key := p.KeyFor(name);
    && p.playlists == old(p.playlists)
    && if key.Some? && key.value in before && p.Playable(id) && p.library.videos[id] !in before[key.value]
       then p.Contents() == before[key.value := before[key.value] + [p.library.videos[id]]]
       else p.Contents() == before
  }

  /** REMOVE_FROM_PLAYLIST: the first copy of the video leaves the matching playlist when it is there; otherwise nothing changes. */
  twostate predicate Removed(p: Player.VideoPlayer, name: string, id: string)
    reads p, p.playlists.Values, p.library.videos.Values
  {
    var before := old(p.Contents());
    var key := p.KeyFor(name);
    && p.playlists == old(p.playlists)
    && if key.Some? && key.value in before && id in p.library.videos && p.library.videos[id] in before[key.value]
       then p.Contents() == before[key.value := Lists.RemoveFirst(before[key.value], p.library.videos[id])]
       else p.Contents() == before
  }

  /** CLEAR_PLAYLIST: the matching playlist is emptied, if there is one. */
  twostate predicate Cleared(p: Player.VideoPlayer, name: string)
    reads p, p.playlists.Values
  {
    var before := old(p.Contents());
    var key := p.KeyFor(name);
    && p.playlists == old(p.playlists)
    && if key.Some? && key.value in before then p.Contents() == before[key.value := []]
       else p.Contents() == before
  }

  /** DELETE_PLAYLIST: the matching playlist is removed, if there is one, and the others keep their videos. */
  twostate predicate Deleted(p: Player.VideoPlayer, name: string)
    reads p, p.playlists.Values
  {
    var key := old(p.KeyFor(name));
    if key.Some? then p.playlists == old(p.playlists) - {key.value} && p.Contents() == old(p.Contents()) - {key.value}
    else p.playlists == old(p.playlists) && p.Contents() == old(p.Contents())
  }

  /** FLAG_VIDEO: the video ends up flagged; a newly flagged one gets the reason and, if it was current, playback stops; nothing else changes. */
  twostate predicate Flagged(p: Player.VideoPlayer, id: string, reason: Option<string>)
    reads p, p.library.videos.Values
  {
    && (forall v :: v in p.library.videos.Values && v.id != id ==> v.flagged == old(v.flagged) && v.reason == old(v.reason))
    && if id !in p.library.videos then PlaybackKept(p)
       else
         var v := p.library.videos[id];
         && v.flagged && p.current != v
         && if old(v.flagged) then v.reason == old(v.reason) && PlaybackKept(p)
            else
              && v.reason == Some(if reason.None? then Videos.DefaultReason else reason.value)
              && if old(p.current) == v then p.current == null && !p.paused else PlaybackKept(p)
  }

  /** ALLOW_VIDEO: the video ends up unflagged, and one that was not flagged keeps its reason; no other video changes. */
  twostate predicate Allowed(p: Player.VideoPlayer, id: string)
    reads p.library.videos.Values
  {
    && (forall v :: v in p.library.videos.Values && v.id != id ==> v.flagged == old(v.flagged) && v.reason == old(v.reason))
    && (id in p.library.videos ==> !p.library.videos[id].flagged)
    && (id in p.library.videos && !old(p.library.videos[id].flagged) ==>
          p.library.videos[id].reason == old(p.library.videos[id].reason))
  }

  /** The commands that only report on the catalog, playback or playlists. */
  predicate Reports(c: Command) {
    c.NumberOfVideos? || c.ShowAllVideos? || c.ShowPlaying? || c.ShowPlaylist? || c.ShowAllPlaylists?
  }

  /** The commands that change playback. */
  predicate AboutPlayback(c: Command) {
    c.Play? || c.PlayRandom? || c.Stop? || c.Pause? || c.Continue?
  }

  /** The commands that add or remove a playlist. */
  predicate AboutPlaylists(c: Command) {
    c.CreatePlaylist? || c.DeletePlaylist?
  }

  /** The commands that change the videos of a playlist. */
  predicate AboutPlaylistVideos(c: Command) {
    c.AddToPlaylist? || c.RemoveFromPlaylist? || c.ClearPlaylist?
  }

  /**
   * The body of executeCommand's switch once the command is known: calls
   * the player operation the command names. `draw` stands for the random
   * number PLAY_RANDOM uses and `choice` for the number the user types
   * after a search.
   */
  method Perform(p: Player.VideoPlayer, c: Command, draw: nat, choice: int)
    returns (out: seq<Messages.Message>)
    requires p.Valid()
    requires c == PlayRandom ==> |p.Unflagged()| == 0 || draw < |p.Unflagged()|
    modifies p`current, p`paused, p`playlists, p.playlists.Values, p.library.videos.Values
    ensures p.Valid()
    ensures c.Invalid? ==> out == [Messages.InvalidCommand]
    ensures c.Usage? ==> out == [Messages.Usage(c.verb)]
    ensures c.Help? ==> out == [Messages.HelpText]
    ensures Effect(p, c, choice) && Kept(p, c)
  {
    if Reports(c) {
      out := PerformReport(p, c);
    } else if AboutPlayback(c) {
      out := PerformPlayback(p, c, draw);
    } else if AboutPlaylists(c) {
      out := PerformOnPlaylists(p, c);
    } else if AboutPlaylistVideos(c) {
      out := PerformOnPlaylistVideos(p, c);
    } else if c.SearchVideos? || c.SearchVideosWithTag? {
      out := PerformSearch(p, c, choice);
    } else if c.FlagVideo? || c.AllowVideo? {
      out := PerformModeration(p, c);
    } else if c.Help? {
      out := [Messages.HelpText];
    } else if c.Usage? {
      out := [Messages.Usage(c.verb)];
    } else {
      out := [Messages.InvalidCommand];
    }
  }

  /** The cases of the switch that only report. */
  method PerformReport(p: Player.VideoPlayer, c: Command) returns (out: seq<Messages.Message>)
    requires p.Valid() && Reports(c)
    ensures Effect(p, c, 0) && Kept(p, c)
  {
    match c
    case NumberOfVideos => out := p.NumberOfVideos();
    case ShowAllVideos => out := p.ShowAllVideos();
    case ShowPlaying => out := p.ShowPlaying();
    case ShowPlaylist(name) => out := p.ShowPlaylist(name);
    case ShowAllPlaylists => out := p.ShowAllPlaylists();
  }

  /** The playback cases of the switch. */
  method PerformPlayback(p: Player.VideoPlayer, c: Command, draw: nat) returns (out: seq<Messages.Message>)
    requires p.Valid() && AboutPlayback(c)
    requires c == PlayRandom ==> |p.Unflagged()| == 0 || draw < |p.Unflagged()|
    modifies p`current, p`paused
    ensures p.Valid()
    ensures Effect(p, c, 0) && Kept(p, c)
  {
    match c
    case Play(id) => out := p.PlayVideo(id);
    case PlayRandom => out := p.PlayRandomVideo(draw);
    case Stop => out := p.StopVideo();
    case Pause => out := p.PauseVideo();
    case Continue => out := p.ContinueVideo();
  }

  /** The cases of the switch that add or remove a playlist. */
  method PerformOnPlaylists(p: Player.VideoPlayer, c: Command) returns (out: seq<Messages.Message>)
    requires p.Valid() && AboutPlaylists(c)
    modifies p`playlists
    ensures p.Valid()
    ensures Effect(p, c, 0) && Kept(p, c)
  {
    if c.CreatePlaylist? {
      out := p.CreatePlaylist(c.name);
    } else {
      out := p.DeletePlaylist(c.name);
    }
  }

  /** The cases of the switch that change the videos of a playlist. */
  method PerformOnPlaylistVideos(p: Player.VideoPlayer, c: Command) returns (out: seq<Messages.Message>)
    requires p.Valid() && AboutPlaylistVideos(c)
    modifies p.playlists.Values
    ensures p.Valid()
    ensures Effect(p, c, 0) && Kept(p, c)
  {
    match c
    case AddToPlaylist(name, id) => out := p.AddVideoToPlaylist(name, id);
    case RemoveFromPlaylist(name, id) => out := p.RemoveFromPlaylist(name, id);
    case ClearPlaylist(name) => out := p.ClearPlaylist(name);
  }

  /** The search cases of the switch: the user's `choice` may play one of the results. */
  method PerformSearch(p: Player.VideoPlayer, c: Command, choice: int) returns (out: seq<Messages.Message>)
    requires p.Valid() && (c.SearchVideos? || c.SearchVideosWithTag?)
    modifies p`current, p`paused
    ensures p.Valid()
    ensures Effect(p, c, choice) && Kept(p, c)
  {
    var term := if c.SearchVideos? then c.term else c.tag;
    var crit := if c.SearchVideos? then Player.ByTitle else Player.ByTag;
    var results;
    results, out := p.SearchVideosBy(term, crit, choice);
  }

  /** The moderation cases of the switch. */
  method PerformModeration(p: Player.VideoPlayer, c: Command) returns (out: seq<Messages.Message>)
    requires p.Valid() && (c.FlagVideo? || c.AllowVideo?)
    modifies p`current, p`paused, p.library.videos.Values
    ensures p.Valid()
    ensures Effect(p, c, 0) && Kept(p, c)
  {
    if c.FlagVideo? {
      out := p.FlagVideo(c.id, c.reason);
    } else {
      out := p.AllowVideo(c.id);
    }
  }

  /** executeCommand: parses the tokens and performs the command on the player. */
  method ExecuteCommand(p: Player.VideoPlayer, tokens: seq<string>, draw: nat, choice: int)
    returns (out: seq<Messages.Message>)
    requires p.Valid()
    requires Parse(tokens) == PlayRandom ==> |p.Unflagged()| == 0 || draw < |p.Unflagged()|
    modifies p`current, p`paused, p`playlists, p.playlists.Values, p.library.videos.Values
    ensures p.Valid()
    ensures Parse(tokens).Invalid? ==> out == [Messages.InvalidCommand]
    ensures Parse(tokens).Usage? ==> out == [Messages.Usage(Parse(tokens).verb)]
    ensures Parse(tokens).Help? ==> out == [Messages.HelpText]
    ensures Effect(p, Parse(tokens), choice) && Kept(p, Parse(tokens))
  {
    out := Perform(p, Parse(tokens), draw, choice);
  }
}

=== FILE: lists.dfy ===
/**
 * The java.util.List operations the player relies on: `contains`
 * (Dafny's `in`), `remove(Object)`, and `sort` with a comparator on a
 * string key (String.compareTo order). Sorting is modelled by insertion
 * sort; only "sorted and a permutation" is promised about it.
 */
module Lists {
  import opened Text

  predicate NoDuplicates<T(==)>(s: seq<T>) {
    forall i, j :: 0 <= i < j < |s| ==> s[i] != s[j]
  }

  /** A duplicate-free sequence has as many distinct elements as positions. */
  lemma {:induction false} DistinctElementCount<T>(s: seq<T>)
    requires NoDuplicates(s)
    ensures |set x | x in s| == |s|
  {
    if s != [] {
      var rest := s[1..];
      DistinctElementCount(rest);
      assert (set x | x in s) == (set x | x in rest) + {s[0]};
      assert forall k :: 0 <= k < |rest| ==> rest[k] == s[k + 1] != s[0];
      assert s[0] !in rest;
    }
  }

  // ---------------------------------------------------------------------
  // List.remove(Object): drop the first occurrence
  // ---------------------------------------------------------------------

  function RemoveFirst<T(==)>(s: seq<T>, x: T): seq<T> {
    if s == [] then []
    else if s[0] == x then s[1..]
    else [s[0]] + RemoveFirst(s[1..], x)
  }

  /**
   * Removing a present element deletes it at its first position and keeps
   * every other element in order.
   */
  lemma {:induction false} RemoveFirstAt<T>(s: seq<T>, x: T) returns (i: nat)
    requires x in s
    ensures i < |s| && s[i] == x && x !in s[..i]
    ensures RemoveFirst(s, x) == s[..i] + s[i + 1..]
  {
    if s[0] == x {
      i := 0;
    } else {
      var j := RemoveFirstAt(s[1..], x);
      i := j + 1;
      assert s[..i] == [s[0]] + s[1..][..j];
      assert s[i + 1..] == s[1..][j + 1..];
    }
  }

  /** Removing a present element takes exactly one copy of it out of the multiset. */
  lemma RemoveFirstTakesOneCopy<T>(s: seq<T>, x: T)
    requires x in s
    ensures multiset(RemoveFirst(s, x)) == multiset(s) - multiset{x}
  {
    var i := RemoveFirstAt(s, x);
    assert s == s[..i] + [x] + s[i + 1..];
    assert multiset(s) == multiset(s[..i]) + multiset{x} + multiset(s[i + 1..]);
  }

  /** Deleting position `i` of a duplicate-free sequence loses exactly the element there. */
  lemma DeleteFromDistinct<T>(s: seq<T>, i: int)
    requires NoDuplicates(s) && 0 <= i < |s|
    ensures NoDuplicates(s[..i] + s[i + 1..])
    ensures forall y :: y in s[..i] + s[i + 1..] <==> y in s && y != s[i]
  {
    var r := s[..i] + s[i + 1..];
    forall a, b | 0 <= a < b < |r| ensures r[a] != r[b] {
      assert r[a] == s[if a < i then a else a + 1];
      assert r[b] == s[if b < i then b else b + 1];
    }
    forall y | y in r ensures y in s && y != s[i] {
      var k :| 0 <= k < |r| && r[k] == y;
      assert y == s[if k < i then k else k + 1];
    }
    forall y | y in s && y != s[i] ensures y in r {
      var k :| 0 <= k < |s| && s[k] == y;
      assert r[if k < i then k else k - 1] == y;
    }
  }

  /** Removing from a duplicate-free sequence removes the element entirely and nothing else. */
  lemma RemoveFirstFromDistinct<T>(s: seq<T>, x: T)
    requires NoDuplicates(s) && x in s
    ensures NoDuplicates(RemoveFirst(s, x))
    ensures |RemoveFirst(s, x)| == |s| - 1
    ensures forall y :: y in RemoveFirst(s, x) <==> y in s && y != x
  {
    var i := RemoveFirstAt(s, x);
    DeleteFromDistinct(s, i);
  }

  // ---------------------------------------------------------------------
  // List.sort(Comparator.comparing(key))
  // ---------------------------------------------------------------------

  predicate SortedBy<T>(s: seq<T>, key: T -> string) {
    forall i, j :: 0 <= i < j < |s| ==> LessOrEqual(key(s[i]), key(s[j]))
  }

  function Insert<T>(x: T, s: seq<T>, key: T -> string): seq<T> {
    if s == [] then [x]
    else if LessOrEqual(key(x), key(s[0])) then [x] + s
    else [s[0]] + Insert(x, s[1..], key)
  }

  function SortBy<T>(s: seq<T>, key: T -> string): seq<T> {
    if s == [] then [] else Insert(s[0], SortBy(s[1..], key), key)
  }

  lemma {:induction false} InsertAddsOneCopy<T>(x: T, s: seq<T>, key: T -> string)
    ensures multiset(Insert(x, s, key)) == multiset(s) + multiset{x}
  {
    if s != [] {
      assert s == [s[0]] + s[1..];
      if !LessOrEqual(key(x), key(s[0])) {
        InsertAddsOneCopy(x, s[1..], key);
      }
    }
  }

  /** Every element of a sorted sequence after the first has a key at least the first's. */
  lemma HeadIsLeast<T>(s: seq<T>, key: T -> string, y: T)
    requires SortedBy(s, key) && s != [] && y in s[1..]
    ensures LessOrEqual(key(s[0]), key(y))
  {
    var m :| 0 <= m < |s[1..]| && s[1..][m] == y;
    assert s[m + 1] == y;
  }

  /** Putting an element no greater than any of a sorted list in front keeps it sorted. */
  lemma ConsKeepsOrder<T>(h: T, t: seq<T>, key: T -> string)
    requires SortedBy(t, key)
    requires forall y :: y in t ==> LessOrEqual(key(h), key(y))
    ensures SortedBy([h] + t, key)
  {
    var r := [h] + t;
    forall i, j | 0 <= i < j < |r| ensures LessOrEqual(key(r[i]), key(r[j])) {
      if i == 0 {
        assert r[j] == t[j - 1] && t[j - 1] in t;
      } else {
        assert r[i] == t[i - 1] && r[j] == t[j - 1];
      }
    }
  }

  lemma {:induction false} InsertKeepsOrder<T>(x: T, s: seq<T>, key: T -> string)
    requires SortedBy(s, key)
    ensures SortedBy(Insert(x, s, key), key)
  {
    if s == [] {
    } else if LessOrEqual(key(x), key(s[0])) {
      forall y | y in s ensures LessOrEqual(key(x), key(y)) {
        if y != s[0] {
          var m :| 0 <= m < |s| && s[m] == y;
          LessOrEqualTransitive(key(x), key(s[0]), key(y));
        }
      }
      ConsKeepsOrder(x, s, key);
    } else {
      var t := Insert(x, s[1..], key);
      InsertKeepsOrder(x, s[1..], key);
      InsertAddsOneCopy(x, s[1..], key);
      forall y | y in t ensures LessOrEqual(key(s[0]), key(y)) {
        assert y in multiset(t);
        if y == x {
          LessOrEqualTotal(key(x), key(s[0]));
        } else {
          assert y in multiset(s[1..]);
          HeadIsLeast(s, key, y);
        }
      }
      ConsKeepsOrder(s[0], t, key);
    }
  }

  /** The sorted list is ordered by key and is a permutation of the input. */
  lemma {:induction false} SortByIsSortedPermutation<T>(s: seq<T>, key: T -> string)
    ensures SortedBy(SortBy(s, key), key)
    ensures multiset(SortBy(s, key)) == multiset(s)
    ensures |SortBy(s, key)| == |s|
  {
    if s != [] {
      SortByIsSortedPermutation(s[1..], key);
      InsertKeepsOrder(s[0], SortBy(s[1..], key), key);
      InsertAddsOneCopy(s[0], SortBy(s[1..], key), key);
      assert s == [s[0]] + s[1..];
      assert |SortBy(s, key)| == |multiset(SortBy(s, key))|;
    }
  }

  /** Permuting a duplicate-free sequence keeps it duplicate-free, with the same elements. */
  lemma PermutationOfDistinct<T>(s: seq<T>, t: seq<T>)
    requires multiset(s) == multiset(t) && NoDuplicates(s)
    ensures NoDuplicates(t)
    ensures forall x :: x in t <==> x in s
  {
    forall x ensures x in t <==> x in s {
      assert x in t <==> x in multiset(t);
      assert x in s <==> x in multiset(s);
    }
    forall i, j | 0 <= i < j < |t| ensures t[i] != t[j] {
      if t[i] == t[j] {
        var x := t[i];
        MultiplicityAtLeastTwo(t, i, j);
        DistinctMultiplicity(s, x);
      }
    }
  }

  lemma {:induction false} MultiplicityAtLeastTwo<T>(t: seq<T>, i: int, j: int)
    requires 0 <= i < j < |t| && t[i] == t[j]
    ensures multiset(t)[t[i]] >= 2
  {
    var x := t[i];
    assert t == t[..i] + [x] + t[i + 1..j] + [x] + t[j + 1..];
    assert multiset(t) == multiset(t[..i]) + multiset{x} + multiset(t[i + 1..j]) + multiset{x} + multiset(t[j + 1..]);
  }

  lemma {:induction false} DistinctMultiplicity<T>(s: seq<T>, x: T)
    requires NoDuplicates(s)
    ensures multiset(s)[x] <= 1
  {
    if s != [] {
      DistinctMultiplicity(s[1..], x);
      assert s == [s[0]] + s[1..];
      assert forall k :: 0 <= k < |s[1..]| ==> s[1..][k] == s[k + 1] != s[0];
      assert s[0] !in s[1..];
    }
  }
}

=== FILE: messages.dfy ===
/**
 * What the player reports, one value per line (or block of lines) it
 * prints. The exact wording is not modelled; every value carries the data
 * its message shows.
 */
module Messages {
  import opened Wrappers

  /** How a video is shown in a listing: its fields, and whether it is flagged and why. */
  datatype Listing = Listing(title: string, id: string, tags: seq<string>, flagged: bool, reason: Option<string>)

  /** The operation named at the start of a "Cannot ..." message. */
  datatype Action =
    | Play
    | Stop
    | Pause
    | Continue
    | Create
    | AddTo(name: string)
    | RemoveFrom(name: string)
    | Clear(name: string)
    | Delete(name: string)
    | Show(name: string)
    | Flag
    | Allow

  /** Why an operation was refused. */
  datatype Problem =
    | NoVideoPlaying
    | VideoMissing
    | VideoIsFlagged(reason: Option<string>)
    | NotPaused
    | PlaylistExists
    | PlaylistMissing
    | AlreadyAdded
    | NotInPlaylist
    | AlreadyFlagged
    | NotFlagged

  datatype Message =
    | Cannot(action: Action, problem: Problem)
    | VideoCount(count: nat)
    | AllVideos(videos: seq<Listing>)
    | Playing(title: string)
    | Stopping(title: string)
    | NoVideosAvailable
    | Pausing(title: string)
    | AlreadyPaused(title: string)
    | Continuing(title: string)
    | NothingPlaying
    | CurrentlyPlaying(video: Listing, paused: bool)
    | PlaylistCreated(name: string)
    | VideoAdded(name: string, title: string)
    | NoPlaylistsYet
    | AllPlaylists(names: seq<string>)
    | PlaylistShown(name: string, videos: seq<Listing>)
    | VideoRemoved(name: string, title: string)
    | PlaylistCleared(name: string)
    | PlaylistDeleted(name: string)
    | NoSearchResults(term: string)
    | SearchResults(term: string, videos: seq<Listing>)
    | VideoFlagged(title: string, reason: Option<string>)
    | VideoAllowed(title: string)
    | InvalidCommand
    | Usage(verb: string)
    | HelpText
}

=== FILE: text.dfy ===
/**
 * The java.lang.String operations the player relies on: case folding,
 * case-insensitive equality, `contains`, `strip`, `split` on a single
 * separator character and `compareTo` ordering. Case folding and white
 * space are restricted to ASCII.
 */
module Text {

  // ---------------------------------------------------------------------
  // Case folding (toUpperCase, toLowerCase, equalsIgnoreCase)
  // ---------------------------------------------------------------------

  function UpperChar(c: char): char {
    if 'a' <= c <= 'z' then (c as int - 32) as char else c
  }

  function LowerChar(c: char): char {
    if 'A' <= c <= 'Z' then (c as int + 32) as char else c
  }

  function ToUpper(s: string): (r: string)
    ensures |r| == |s|
  {
    seq(|s|, i requires 0 <= i < |s| => UpperChar(s[i]))
  }

  function ToLower(s: string): (r: string)
    ensures |r| == |s|
  {
    seq(|s|, i requires 0 <= i < |s| => LowerChar(s[i]))
  }

  /** Character comparison of String.equalsIgnoreCase (String.regionMatches). */
  predicate CharsEqualIgnoreCase(a: char, b: char) {
    a == b || UpperChar(a) == UpperChar(b) || LowerChar(UpperChar(a)) == LowerChar(UpperChar(b))
  }

  predicate EqualsIgnoreCase(a: string, b: string) {
    |a| == |b| && forall i :: 0 <= i < |a| ==> CharsEqualIgnoreCase(a[i], b[i])
  }

  lemma CharsEqualIgnoreCaseIffUpper(a: char, b: char)
    ensures CharsEqualIgnoreCase(a, b) <==> UpperChar(a) == UpperChar(b)
  {
  }

  /** Two strings are equal ignoring case exactly when their upper-case forms agree. */
  lemma EqualsIgnoreCaseIffSameUpper(a: string, b: string)
    ensures EqualsIgnoreCase(a, b) <==> ToUpper(a) == ToUpper(b)
  {
    if EqualsIgnoreCase(a, b) {
      forall i | 0 <= i < |a| ensures ToUpper(a)[i] == ToUpper(b)[i] {
        CharsEqualIgnoreCaseIffUpper(a[i], b[i]);
      }
    }
    if ToUpper(a) == ToUpper(b) {
      forall i | 0 <= i < |a| ensures CharsEqualIgnoreCase(a[i], b[i]) {
        assert ToUpper(a)[i] == ToUpper(b)[i];
        CharsEqualIgnoreCaseIffUpper(a[i], b[i]);
      }
    }
  }

  /** equalsIgnoreCase is an equivalence relation. */
  lemma EqualsIgnoreCaseIsEquivalence(a: string, b: string, c: string)
    ensures EqualsIgnoreCase(a, a)
    ensures EqualsIgnoreCase(a, b) ==> EqualsIgnoreCase(b, a)
    ensures EqualsIgnoreCase(a, b) && EqualsIgnoreCase(b, c) ==> EqualsIgnoreCase(a, c)
  {
    EqualsIgnoreCaseIffSameUpper(a, a);
    EqualsIgnoreCaseIffSameUpper(a, b);
    EqualsIgnoreCaseIffSameUpper(b, a);
    EqualsIgnoreCaseIffSameUpper(b, c);
    EqualsIgnoreCaseIffSameUpper(a, c);
  }

  // ---------------------------------------------------------------------
  // String.contains
  // ---------------------------------------------------------------------

  /** `t` occurs in `s` starting at index `i`. */
  predicate OccursAt(s: string, t: string, i: int) {
    0 <= i && i + |t| <= |s| && s[i..i + |t|] == t
  }

  /** String.contains: scan the start positions from left to right. */
  function Contains(s: string, t: string): bool
    decreases |s|
  {
    if |t| > |s| then false
    else if s[..|t|] == t then true
    else Contains(s[1..], t)
  }

  lemma {:induction false} ContainsIffOccurs(s: string, t: string)
    ensures Contains(s, t) <==> exists i :: OccursAt(s, t, i)
    decreases |s|
  {
    if |t| > |s| {
    } else if s[..|t|] == t {
      assert OccursAt(s, t, 0);
    } else {
      ContainsIffOccurs(s[1..], t);
      if Contains(s[1..], t) {
        var i :| OccursAt(s[1..], t, i);
        assert s[1..][i..i + |t|] == s[i + 1..i + 1 + |t|];
        assert OccursAt(s, t, i + 1);
      }
      if i :| OccursAt(s, t, i) {
        assert i != 0;
        assert s[1..][i - 1..i - 1 + |t|] == s[i..i + |t|];
        assert OccursAt(s[1..], t, i - 1);
      }
    }
  }

  // ---------------------------------------------------------------------
  // String.strip (ASCII white space of Character.isWhitespace)
  // ---------------------------------------------------------------------

  predicate IsWhitespace(c: char) {
    c == ' ' || c == '\t' || c == '\n' || c == '\U{B}' || c == '\U{C}' || c == '\r' || '\U{1C}' <= c <= '\U{1F}'
  }

  predicate AllWhitespace(s: string) {
    forall i :: 0 <= i < |s| ==> IsWhitespace(s[i])
  }

  /** No white space at either end. */
  predicate Stripped(s: string) {
    s == [] || (!IsWhitespace(s[0]) && !IsWhitespace(s[|s| - 1]))
  }

  function StripLeading(s: string): string {
    if s != [] && IsWhitespace(s[0]) then StripLeading(s[1..]) else s
  }

  function StripTrailing(s: string): string {
    if s != [] && IsWhitespace(s[|s| - 1]) then StripTrailing(s[..|s| - 1]) else s
  }

  function Strip(s: string): string {
    StripTrailing(StripLeading(s))
  }

  lemma {:induction false} StripLeadingSplits(s: string) returns (i: nat)
    ensures i <= |s| && StripLeading(s) == s[i..] && AllWhitespace(s[..i])
    ensures StripLeading(s) == [] || !IsWhitespace(StripLeading(s)[0])
  {
    if s != [] && IsWhitespace(s[0]) {
      var j := StripLeadingSplits(s[1..]);
      i := j + 1;
      assert s[1..][j..] == s[i..];
      assert forall k :: 0 < k < i ==> s[..i][k] == s[1..][..j][k - 1];
    } else {
      i := 0;
    }
  }

  lemma {:induction false} StripTrailingSplits(s: string) returns (j: nat)
    ensures j <= |s| && StripTrailing(s) == s[..j] && AllWhitespace(s[j..])
    ensures StripTrailing(s) == [] || !IsWhitespace(StripTrailing(s)[|StripTrailing(s)| - 1])
    decreases |s|
  {
    if s != [] && IsWhitespace(s[|s| - 1]) {
      var p := s[..|s| - 1];
      j := StripTrailingSplits(p);
      assert p[..j] == s[..j];
      assert forall k :: j <= k < |s| - 1 ==> s[k] == p[j..][k - j];
    } else {
      j := |s|;
    }
  }

  /** strip removes white space only, and only from the two ends. */
  lemma StripRemovesOnlyOuterWhitespace(s: string)
    ensures Stripped(Strip(s))
    ensures exists i, j :: 0 <= i <= j <= |s| && Strip(s) == s[i..j]
                           && AllWhitespace(s[..i]) && AllWhitespace(s[j..])
  {
    var i := StripLeadingSplits(s);
    var t := StripLeading(s);
    var j := StripTrailingSplits(t);
    assert Strip(s) == s[i..][..j] == s[i..i + j];
    assert s[i + j..] == t[j..];
  }

  /** A string with no white space at its ends is its own strip. */
  lemma StripKeepsStripped(s: string)
    requires Stripped(s)
    ensures Strip(s) == s
  {
  }

  // ---------------------------------------------------------------------
  // String.split on a one-character separator
  // ---------------------------------------------------------------------

  /** The pieces of `s` between separators, empty pieces included. */
  function Fields(s: string, sep: char): (r: seq<string>)
    ensures |r| >= 1
  {
    if s == [] then [[]]
    else
      var rest := Fields(s[1..], sep);
      if s[0] == sep then [[]] + rest else [[s[0]] + rest[0]] + rest[1..]
  }

  function Join(fs: seq<string>, sep: char): string
    requires |fs| >= 1
  {
    if |fs| == 1 then fs[0] else fs[0] + [sep] + Join(fs[1..], sep)
  }

  function DropTrailingEmpty(fs: seq<string>): (r: seq<string>)
    ensures |r| <= |fs| && r == fs[..|r|]
    ensures r == [] || r[|r| - 1] != []
  {
    if fs != [] && fs[|fs| - 1] == [] then DropTrailingEmpty(fs[..|fs| - 1]) else fs
  }

  /**
   * String.split with a one-character pattern and no limit: without a
   * separator the result is the string itself; otherwise the fields, with
   * trailing empty fields removed.
   */
  function Split(s: string, sep: char): seq<string> {
    if sep !in s then [s] else DropTrailingEmpty(Fields(s, sep))
  }

  /** Joining the fields with the separator gives back the string. */
  lemma {:induction false} JoinFields(s: string, sep: char)
    ensures Join(Fields(s, sep), sep) == s
  {
    if s != [] {
      JoinFields(s[1..], sep);
      var rest := Fields(s[1..], sep);
      if s[0] == sep {
        assert s == [] + [sep] + s[1..];
      } else if |rest| == 1 {
      } else {
        assert [[s[0]] + rest[0]] + rest[1..] == [[s[0]] + rest[0]] + rest[1..];
        assert ([[s[0]] + rest[0]] + rest[1..])[1..] == rest[1..];
      }
    }
  }

  /** No field contains the separator. */
  lemma {:induction false} FieldsAvoidSeparator(s: string, sep: char)
    ensures forall f :: f in Fields(s, sep) ==> sep !in f
  {
    if s != [] {
      FieldsAvoidSeparator(s[1..], sep);
    }
  }

  /** No piece of a split contains the separator. */
  lemma SplitAvoidsSeparator(s: string, sep: char)
    ensures forall f :: f in Split(s, sep) ==> sep !in f
  {
    if sep in s {
      FieldsAvoidSeparator(s, sep);
      var fs := Fields(s, sep);
      var r := DropTrailingEmpty(fs);
      forall f | f in r ensures sep !in f {
        var k :| 0 <= k < |r| && r[k] == f;
        assert fs[k] in fs;
      }
    }
  }

  /** Splitting a join of separator-free fields gives back the fields. */
  lemma {:induction false} FieldsOfJoin(fs: seq<string>, sep: char)
    requires |fs| >= 1
    requires forall f :: f in fs ==> sep !in f
    ensures Fields(Join(fs, sep), sep) == fs
    decreases |fs|, |fs[0]|
  {
    if |fs| == 1 {
      FieldsOfSeparatorFree(fs[0], sep);
    } else if fs[0] == [] {
      FieldsOfJoin(fs[1..], sep);
      assert Join(fs, sep) == [sep] + Join(fs[1..], sep);
      assert Join(fs, sep)[1..] == Join(fs[1..], sep);
    } else {
      var tail := [fs[0][1..]] + fs[1..];
      assert tail[1..] == fs[1..];
      assert fs[0] in fs && fs[0][0] in fs[0];
      assert forall f :: f in tail ==> f == fs[0][1..] || f in fs[1..];
      assert forall c :: c in fs[0][1..] ==> c in fs[0];
      FieldsOfJoin(tail, sep);
      assert Join(fs, sep) == [fs[0][0]] + Join(tail, sep);
      assert Join(fs, sep)[1..] == Join(tail, sep);
      assert fs[0] == [fs[0][0]] + fs[0][1..];
    }
  }

  lemma {:induction false} FieldsOfSeparatorFree(s: string, sep: char)
    requires sep !in s
    ensures Fields(s, sep) == [s]
  {
    if s != [] {
      assert s[0] in s;
      assert forall c :: c in s[1..] ==> c in s;
      FieldsOfSeparatorFree(s[1..], sep);
      assert [s[0]] + s[1..] == s;
    }
  }

  /** Joining separator-free fields puts the separator in exactly when there is more than one field. */
  lemma {:induction false} SeparatorInJoin(fs: seq<string>, sep: char)
    requires |fs| >= 1
    requires forall f :: f in fs ==> sep !in f
    ensures sep in Join(fs, sep) <==> |fs| > 1
  {
    if |fs| > 1 {
      assert Join(fs, sep)[|fs[0]|] == sep;
    }
  }

  /** A separator never appears in a join whose fields avoid it and that uses another separator. */
  lemma {:induction false} JoinAvoids(fs: seq<string>, sep: char, c: char)
    requires |fs| >= 1 && c != sep
    requires forall f :: f in fs ==> c !in f
    ensures c !in Join(fs, sep)
  {
    if |fs| > 1 {
      JoinAvoids(fs[1..], sep, c);
    }
  }

  /** Split undoes Join when no field is empty at the end and none holds the separator. */
  lemma SplitOfJoin(fs: seq<string>, sep: char)
    requires |fs| >= 1 && fs[|fs| - 1] != []
    requires forall f :: f in fs ==> sep !in f
    ensures Split(Join(fs, sep), sep) == fs
  {
    SeparatorInJoin(fs, sep);
    if |fs| > 1 {
      FieldsOfJoin(fs, sep);
    }
  }

  // ---------------------------------------------------------------------
  // String.compareTo: lexicographic order on characters
  // ---------------------------------------------------------------------

  predicate LessOrEqual(a: string, b: string) {
    a == [] || (b != [] && (a[0] < b[0] || (a[0] == b[0] && LessOrEqual(a[1..], b[1..]))))
  }

  lemma {:induction false} LessOrEqualTotal(a: string, b: string)
    ensures LessOrEqual(a, b) || LessOrEqual(b, a)
  {
    if a != [] && b != [] && a[0] == b[0] {
      LessOrEqualTotal(a[1..], b[1..]);
    }
  }

  lemma {:induction false} LessOrEqualTransitive(a: string, b: string, c: string)
    requires LessOrEqual(a, b) && LessOrEqual(b, c)
    ensures LessOrEqual(a, c)
  {
    if a != [] && a[0] == b[0] && b[0] == c[0] {
      LessOrEqualTransitive(a[1..], b[1..], c[1..]);
    }
  }

  lemma {:induction false} LessOrEqualAntisymmetric(a: string, b: string)
    requires LessOrEqual(a, b) && LessOrEqual(b, a)
    ensures a == b
  {
    if a != [] {
      LessOrEqualAntisymmetric(a[1..], b[1..]);
      assert a == [a[0]] + a[1..];
      assert b == [b[0]] + b[1..];
    }
  }
}

=== FILE: video.dfy ===
/**
 * A catalog video: title, id and tags are fixed at construction; the
 * moderation flag and its reason change in place.
 */
module Videos {
  import opened Wrappers

  /** The reason stored when a video is flagged without one. */
  const DefaultReason: string := "Not supplied"

  class Video {
    const title: string
    const id: string
    const tags: seq<string>
    var flagged: bool
    /** What getFlag returns: absent until the video is first flagged. */
    var reason: Option<string>

    /** A new video is unflagged and has no reason. */
    constructor (title: string, id: string, tags: seq<string>)
      ensures this.title == title && this.id == id && this.tags == tags
      ensures !flagged && reason == None
    {
      this.title := title;
      this.id := id;
      this.tags := tags;
      flagged := false;
      reason := None;
    }

    /** Marks the video flagged, with the given reason or the default one. */
    method Flag(why: Option<string>)
      modifies this
      ensures flagged
      ensures reason == Some(if why.None? then DefaultReason else why.value)
    {
      flagged := true;
      if why.None? {
        reason := Some(DefaultReason);
      } else {
        reason := why;
      }
    }

    /**
     * Video.unflag is called by the player but is not defined in the shown
     * Video class; the model gives it only what its callers need.
     */
    method Unflag()
      modifies this
      ensures !flagged
    {
      flagged := false;
    }
  }
}

=== FILE: video_library.dfy ===
/**
 * The catalog: a map from video id to video, filled once from lines of the
 * form `title | id | tag, tag, ...` and never changed afterwards. Reading
 * the lines from the data file is not part of this model; the constructor
 * takes them as a sequence.
 */
module Library {
  import opened Text
  import opened Lists
  import opened Videos

  /** The three parts of one catalog line, after splitting and stripping. */
  datatype Record = Record(title: string, id: string, tags: seq<string>)

  /** A line the loader gets through: splitting on `|` leaves a title and an id field. */
  predicate Readable(line: string) {
    |Split(line, '|')| >= 2
  }

  function StripEach(fs: seq<string>): seq<string> {
    seq(|fs|, i requires 0 <= i < |fs| => Strip(fs[i]))
  }

  /**
   * One loop iteration of the loader: field 0 is the title, field 1 the id,
   * and field 2, when present, the comma-separated tags; every piece is stripped.
   */
  function ParseLine(line: string): Record
    requires Readable(line)
  {
    var fields := Split(line, '|');
    var tags := if |fields| > 2 then StripEach(Split(fields[2], ',')) else [];
    Record(Strip(fields[0]), Strip(fields[1]), tags)
  }

  /** The tags field of a catalog line. */
  function TagsText(tags: seq<string>): string {
    if tags == [] then "" else Join(tags, ',')
  }

  /** A catalog line for a record, without padding around the separators. */
  function FormatLine(r: Record): string {
    Join([r.title, r.id, TagsText(r.tags)], '|')
  }

  /** A record that a catalog line can carry unchanged. */
  predicate WellFormed(r: Record) {
    && '|' !in r.title && Stripped(r.title)
    && '|' !in r.id && Stripped(r.id) && r.id != []
    && forall t :: t in r.tags ==> t != [] && Stripped(t) && '|' !in t && ',' !in t
  }

  /** Splitting a non-empty tags field on `,` and stripping the pieces gives the tags back. */
  lemma TagsRoundTrip(tags: seq<string>)
    requires tags != []
    requires forall t :: t in tags ==> t != [] && Stripped(t) && ',' !in t
    ensures TagsText(tags) != []
    ensures StripEach(Split(TagsText(tags), ',')) == tags
  {
    assert tags[|tags| - 1] in tags;
    SplitOfJoin(tags, ',');
    assert TagsText(tags) != [] by {
      if |tags| == 1 {
        assert TagsText(tags) == tags[0];
      } else {
        assert TagsText(tags) == tags[0] + [','] + Join(tags[1..], ',');
      }
    }
    forall k | 0 <= k < |tags| ensures StripEach(tags)[k] == tags[k] {
      assert tags[k] in tags;
      StripKeepsStripped(tags[k]);
    }
  }

  /** The `|`-separated fields of the line written for a well-formed record. */
  lemma FieldsOfLine(r: Record)
    requires WellFormed(r)
    ensures Split(FormatLine(r), '|') == if r.tags == [] then [r.title, r.id] else [r.title, r.id, TagsText(r.tags)]
  {
    var j := TagsText(r.tags);
    var fs := [r.title, r.id, j];
    if r.tags != [] {
      JoinAvoids(r.tags, ',', '|');
      TagsRoundTrip(r.tags);
    }
    assert forall f :: f in fs ==> '|' !in f;
    SeparatorInJoin(fs, '|');
    FieldsOfJoin(fs, '|');
    if r.tags == [] {
      assert fs == [r.title, r.id, []];
      assert DropTrailingEmpty(fs) == DropTrailingEmpty([r.title, r.id]) == [r.title, r.id];
    }
  }

  /** Parsing the line written for a well-formed record gives the record back. */
  lemma ParseFormatRoundTrip(r: Record)
    requires WellFormed(r)
    ensures Readable(FormatLine(r))
    ensures ParseLine(FormatLine(r)) == r
  {
    FieldsOfLine(r);
    if r.tags != [] {
      TagsRoundTrip(r.tags);
    }
    StripKeepsStripped(r.title);
    StripKeepsStripped(r.id);
  }

  predicate AllReadable(lines: seq<string>) {
    forall i :: 0 <= i < |lines| ==> Readable(lines[i])
  }

  /** The record of every line, in file order. */
  function ParseLines(lines: seq<string>): (rs: seq<Record>)
    requires AllReadable(lines)
    ensures |rs| == |lines|
  {
    seq(|lines|, i requires 0 <= i < |lines| => ParseLine(lines[i]))
  }

  /** The map the loader's `put` calls build from records in order: a later record with the same id wins. */
  function Index(rs: seq<Record>): (c: map<string, Record>)
    ensures forall id :: id in c ==> c[id].id == id
  {
    if rs == [] then map[]
    else
      var r := rs[|rs| - 1];
      Index(rs[..|rs| - 1])[r.id := r]
  }

  /** The catalog the loader builds from the lines of the data file. */
  function Catalog(lines: seq<string>): map<string, Record>
    requires AllReadable(lines)
  {
    Index(ParseLines(lines))
  }

  /** The index holds exactly the ids of the records. */
  lemma {:induction false} IndexIds(rs: seq<Record>)
    ensures forall id :: id in Index(rs) <==> exists k :: 0 <= k < |rs| && rs[k].id == id
  {
    if rs != [] {
      var n := |rs| - 1;
      var init := rs[..n];
      IndexIds(init);
      forall id ensures id in Index(rs) <==> exists k :: 0 <= k < |rs| && rs[k].id == id {
        if id in Index(init) {
          var k :| 0 <= k < n && init[k].id == id;
          assert rs[k].id == id;
        }
        if k :| 0 <= k < |rs| && rs[k].id == id {
          if k < n {
            assert init[k].id == id;
          }
        }
      }
    }
  }

  /** The record kept for an id is the last record carrying that id. */
  lemma {:induction false} IndexKeepsLast(rs: seq<Record>, k: int)
    requires 0 <= k < |rs|
    requires forall j :: k < j < |rs| ==> rs[j].id != rs[k].id
    ensures rs[k].id in Index(rs) && Index(rs)[rs[k].id] == rs[k]
  {
    var n := |rs| - 1;
    if k < n {
      var init := rs[..n];
      assert init[k] == rs[k];
      forall j | k < j < |init| ensures init[j].id != init[k].id {
        assert init[j] == rs[j];
      }
      IndexKeepsLast(init, k);
    }
  }

  lemma IndexStep(rs: seq<Record>, i: int)
    requires 0 <= i < |rs|
    ensures Index(rs[..i + 1]) == Index(rs[..i])[rs[i].id := rs[i]]
  {
    assert rs[..i + 1][..i] == rs[..i];
  }

  class VideoLibrary {
    const videos: map<string, Video>

    /** Every video is stored under its own id. */
    ghost predicate Valid() {
      forall id :: id in videos ==> videos[id].id == id
    }

    /** Builds one new, unflagged video per catalog entry. */
    constructor (lines: seq<string>)
      requires AllReadable(lines)
      ensures Valid()
      ensures videos.Keys == Catalog(lines).Keys
      ensures forall id :: id in videos ==> Record(videos[id].title, id, videos[id].tags) == Catalog(lines)[id]
      ensures forall v :: v in videos.Values ==> fresh(v) && !v.flagged && v.reason.None?
    {
      ghost var rs := ParseLines(lines);
      var m: map<string, Video> := map[];
      for i := 0 to |lines|
        invariant m.Keys == Index(rs[..i]).Keys
        invariant forall id :: id in m ==> Record(m[id].title, m[id].id, m[id].tags) == Index(rs[..i])[id]
        invariant forall id :: id in m ==> fresh(m[id]) && !m[id].flagged && m[id].reason.None?
      {
        var r := ParseLine(lines[i]);
        IndexStep(rs, i);
        var v := new Video(r.title, r.id, r.tags);
        m := m[r.id := v];
      }
      assert rs[..|lines|] == rs;
      videos := m;
    }

    /** A stored video is found under its own id. */
    lemma StoredUnderOwnId(v: Video)
      requires Valid() && v in videos.Values
      ensures v.id in videos && videos[v.id] == v
    {
      var id :| id in videos && videos[id] == v;
    }

    /** getVideo: the video stored under `id`, or null for an unknown id. */
    function GetVideo(id: string): (v: Video?)
      requires Valid()
      ensures v == null <==> id !in videos
      ensures v != null ==> v in videos.Values && v.id == id
    {
      if id in videos then videos[id] else null
    }

    /** getVideos: a new list holding each stored video once. */
    method GetVideos() returns (vs: seq<Video>)
      requires Valid()
      ensures |vs| == |videos|
      ensures NoDuplicates(vs)
      ensures forall v :: v in vs <==> v in videos.Values
    {
      var todo := videos.Keys;
      vs := [];
      while todo != {}
        invariant todo <= videos.Keys
        invariant |vs| + |todo| == |videos|
        invariant NoDuplicates(vs)
        invariant forall k :: 0 <= k < |vs| ==> vs[k].id in videos && vs[k].id !in todo && videos[vs[k].id] == vs[k]
        invariant forall id :: id in videos && id !in todo ==> videos[id] in vs
        decreases |todo|
      {
        var id :| id in todo;
        vs := vs + [videos[id]];
        todo := todo - {id};
      }
    }
  }
}

=== FILE: video_player.dfy ===
/**
 * The player: playback state (the current video and the paused flag),
 * the playlists keyed by name, search over the catalog, and moderation.
 * Every operation returns the messages it would print instead of printing
 * them.
 */
module Player {
  import opened Wrappers
  import opened Text
  import opened Lists
  import opened Videos
  import opened Playlists
  import opened Library
  import opened Messages

  /** Title search (searchVideos) or tag search (searchVideosWithTag). */
  datatype Criterion = ByTitle | ByTag

  function TitleOf(v: Video): string {
    v.title
  }

  function Itself(s: string): string {
    s
  }

  function ListingTitle(l: Listing): string {
    l.title
  }

  /** How a video is shown: `%s` of the video plus its flag state. */
  function ListingOf(v: Video): Listing
    reads v
  {
    Listing(v.title, v.id, v.tags, v.flagged, v.reason)
  }

  function Listings(vs: seq<Video>): (ls: seq<Listing>)
    reads set v | v in vs
    ensures |ls| == |vs|
    ensures forall i :: 0 <= i < |vs| ==> ls[i] == ListingOf(vs[i])
  {
    if vs == [] then [] else [ListingOf(vs[0])] + Listings(vs[1..])
  }

  /** Listing videos keeps their order by title. */
  lemma ListingsKeepTitleOrder(vs: seq<Video>)
    requires SortedBy(vs, TitleOf)
    ensures SortedBy(Listings(vs), ListingTitle)
  {
    var ls := Listings(vs);
    forall i, j | 0 <= i < j < |ls| ensures LessOrEqual(ListingTitle(ls[i]), ListingTitle(ls[j])) {
      assert ls[i].title == vs[i].title && ls[j].title == vs[j].title;
    }
  }

  /**
   * deletePlaylist as written removes from the sorted map while iterating
   * over its keys: the removal itself happens, but the iterator's next step
   * fails with ConcurrentModificationException unless the removed name was
   * the last one in key order.
   */
  datatype DeleteLoop = DeleteLoop(remaining: seq<string>, thrown: bool)

  /** The loop over `keys` (in iteration order) as written. */
  function DeleteLoopAsWritten(keys: seq<string>, name: string): (r: DeleteLoop)
    ensures |r.remaining| <= |keys|
  {
    if keys == [] then DeleteLoop([], false)
    else if EqualsIgnoreCase(keys[0], name) then DeleteLoop(keys[1..], |keys| > 1)
    else
      var rest := DeleteLoopAsWritten(keys[1..], name);
      DeleteLoop([keys[0]] + rest.remaining, rest.thrown)
  }

  /**
   * With exactly one name matching, the loop removes that name and nothing
   * else, and throws exactly when the name is not the last one.
   */
  lemma {:induction false} DeleteLoopAsWrittenEffect(keys: seq<string>, name: string, i: int)
    requires 0 <= i < |keys| && EqualsIgnoreCase(keys[i], name)
    requires forall j :: 0 <= j < |keys| && j != i ==> !EqualsIgnoreCase(keys[j], name)
    ensures DeleteLoopAsWritten(keys, name).remaining == keys[..i] + keys[i + 1..]
    ensures DeleteLoopAsWritten(keys, name).thrown <==> i < |keys| - 1
  {
    if i > 0 {
      assert !EqualsIgnoreCase(keys[0], name);
      var tail := keys[1..];
      forall j | 0 <= j < |tail| && j != i - 1 ensures !EqualsIgnoreCase(tail[j], name) {
        assert tail[j] == keys[j + 1];
      }
      DeleteLoopAsWrittenEffect(tail, name, i - 1);
      assert keys[..i] == [keys[0]] + tail[..i - 1];
      assert keys[i + 1..] == tail[i..];
    }
  }

  /** Deleting "a" when "b" also exists: the playlist goes, then the loop throws. */
  lemma DeletingAllButTheLastThrows()
    ensures DeleteLoopAsWritten(["a", "b"], "a") == DeleteLoop(["b"], true)
  {
    assert EqualsIgnoreCase("a", "a");
  }

  class VideoPlayer {
    const library: VideoLibrary
    /**
     * Video.tagExists(term) is called by the player but is not defined in
     * the shown Video class; it is a given predicate over a video's tags and
     * the search term.
     */
    const tagExists: (seq<string>, string) -> bool
    var current: Video?
    var paused: bool
    var playlists: map<string, VideoPlaylist>

    /**
     * The player's invariant: paused only while a video is current, the
     * current video is a catalog video and is not flagged, and the playlists
     * are stored under their own names, unique ignoring case, and hold no
     * video twice.
     */
    ghost predicate Valid()
      reads this, library.videos.Values, playlists.Values
    {
      && library.Valid()
      && (paused ==> current != null)
      && (current != null ==> current in library.videos.Values && !current.flagged)
      && (forall k :: k in playlists ==> playlists[k].name == k)
      && (forall k, k' :: k in playlists && k' in playlists && EqualsIgnoreCase(k, k') ==> k == k')
      && (forall k :: k in playlists ==> NoDuplicates(playlists[k].videos))
    }

    /** The videos of every playlist, by stored name. */
    ghost function Contents(): map<string, seq<Video>>
      reads this, playlists.Values
    {
      map k | k in playlists :: playlists[k].videos
    }

    /** The stored playlist name that equals `name` ignoring case, if there is one. */
    ghost function KeyFor(name: string): Option<string>
      reads this
    {
      if exists k :: k in playlists && EqualsIgnoreCase(k, name)
      then Some(var k :| k in playlists && EqualsIgnoreCase(k, name); k)
      else None
    }

    /** The ids of the catalog videos that are not flagged. */
    ghost function Unflagged(): set<string>
      reads library.videos.Values
    {
      set id | id in library.videos && !library.videos[id].flagged
    }

    /** A video that `playVideo` accepts. */
    ghost predicate Playable(id: string)
      reads library.videos.Values
    {
      id in library.videos && !library.videos[id].flagged
    }

    /** A video `v` matches `term` under criterion `crit`. */
    predicate Matches(v: Video, term: string, crit: Criterion) {
      match crit
      case ByTitle => Contains(ToLower(v.title), ToLower(term))
      case ByTag => tagExists(v.tags, term)
    }

    /** Loads the catalog from its lines; nothing plays and there are no playlists. */
    constructor (lines: seq<string>, tagExists: (seq<string>, string) -> bool)
      requires AllReadable(lines)
      ensures Valid()
      ensures library.videos.Keys == Catalog(lines).Keys
      ensures forall id :: id in library.videos ==>
                Record(library.videos[id].title, id, library.videos[id].tags) == Catalog(lines)[id]
      ensures forall v :: v in library.videos.Values ==> fresh(v) && !v.flagged && v.reason.None?
      ensures this.tagExists == tagExists
      ensures current == null && !paused && playlists == map[]
    {
      library := new VideoLibrary(lines);
      this.tagExists := tagExists;
      current := null;
      paused := false;
      playlists := map[];
    }

    /** Any stored name matching `name` ignoring case is the one KeyFor finds. */
    lemma KeyForIsTheMatch(name: string, k: string)
      requires Valid()
      requires k in playlists && EqualsIgnoreCase(k, name)
      ensures KeyFor(name) == Some(k)
    {
      var k' := KeyFor(name).value;
      EqualsIgnoreCaseIsEquivalence(k, name, k);
      EqualsIgnoreCaseIsEquivalence(k', name, k);
    }

    // -------------------------------------------------------------------
    // Catalog views
    // -------------------------------------------------------------------

    /** numberOfVideos: the size of the catalog. */
    method NumberOfVideos() returns (out: seq<Message>)
      requires Valid()
      ensures out == [VideoCount(|library.videos|)]
    {
      var vs := library.GetVideos();
      out := [VideoCount(|vs|)];
    }

    /** showAllVideos: every catalog video once, ordered by title, flagged ones marked. */
    method ShowAllVideos() returns (out: seq<Message>)
      requires Valid()
      ensures |library.videos| == 0 ==> out == []
      ensures |library.videos| > 0 ==> |out| == 1 && out[0].AllVideos? && ShowsCatalog(out[0].videos)
    {
      if |library.videos| == 0 {
        return [];
      }
      var vs := library.GetVideos();
      var sorted := SortBy(vs, TitleOf);
      SortByIsSortedPermutation(vs, TitleOf);
      PermutationOfDistinct(vs, sorted);
      ListingsKeepTitleOrder(sorted);
      var ls := Listings(sorted);
      forall l | l in ls ensures l.id in library.videos && l == ListingOf(library.videos[l.id]) {
        var i :| 0 <= i < |ls| && ls[i] == l;
        assert sorted[i] in sorted;
      }
      forall id | id in library.videos ensures ListingOf(library.videos[id]) in ls {
        var v := library.videos[id];
        assert v in sorted;
        var i :| 0 <= i < |sorted| && sorted[i] == v;
        assert ls[i] == ListingOf(v);
      }
      out := [AllVideos(ls)];
    }

    /** `ls` lists each catalog video, ordered by title. */
    ghost predicate ShowsCatalog(ls: seq<Listing>)
      reads library.videos.Values
    {
      && |ls| == |library.videos|
      && SortedBy(ls, ListingTitle)
      && (forall l :: l in ls ==> l.id in library.videos && l == ListingOf(library.videos[l.id]))
      && (forall id :: id in library.videos ==> ListingOf(library.videos[id]) in ls)
    }

    // -------------------------------------------------------------------
    // Playback
    // -------------------------------------------------------------------

    /**
     * playVideo: silent on an empty catalog; refuses an unknown or flagged
     * video; otherwise stops whatever was current and plays the video.
     */
    method PlayVideo(id: string) returns (out: seq<Message>)
      requires Valid()
      modifies this`current, this`paused
      ensures Valid()
      ensures Playable(id) ==> current == library.videos[id] && !paused
      ensures !Playable(id) ==> current == old(current) && paused == old(paused)
      ensures |library.videos| == 0 ==> out == []
      ensures |library.videos| > 0 && id !in library.videos ==> out == [Cannot(Play, VideoMissing)]
      ensures id in library.videos && library.videos[id].flagged ==>
                out == [Cannot(Play, VideoIsFlagged(library.videos[id].reason))]
      ensures Playable(id) ==>
                out == (if old(current) == null then [] else [Stopping(old(current).title)]) + [Playing(current.title)]
    {
      out := [];
      if |library.videos| > 0 {
        var v := library.GetVideo(id);
        if v == null {
          out := [Cannot(Play, VideoMissing)];
        } else if v.flagged {
          out := [Cannot(Play, VideoIsFlagged(v.reason))];
        } else {
          if current != null {
            out := [Stopping(current.title)];
          }
          if paused {
            paused := false;
          }
          current := v;
          out := out + [Playing(v.title)];
        }
      }
    }

    /** stopVideo: an error when nothing is current; otherwise clears the playback state. */
    method StopVideo() returns (out: seq<Message>)
      requires Valid()
      modifies this`current, this`paused
      ensures Valid()
      ensures current == null && !paused
      ensures out == if old(current) == null then [Cannot(Stop, NoVideoPlaying)] else [Stopping(old(current).title)]
    {
      if current == null {
        out := [Cannot(Stop, NoVideoPlaying)];
      } else {
        out := [Stopping(current.title)];
        current := null;
        paused := false;
      }
    }

    /** The ids of the unflagged catalog videos, each once (the list playRandomVideo draws from). */
    method UnflaggedIds() returns (ids: seq<string>)
      requires Valid()
      ensures NoDuplicates(ids)
      ensures |ids| == |Unflagged()|
      ensures forall id :: id in ids <==> id in Unflagged()
    {
      var vs := library.GetVideos();
      ids := [];
      for i := 0 to |vs|
        invariant NoDuplicates(ids)
        invariant forall id :: id in ids <==> id in Unflagged() && library.videos[id] in vs[..i]
      {
        var v := vs[i];
        library.StoredUnderOwnId(v);
        assert v !in vs[..i];
        if !v.flagged {
          ids := ids + [v.id];
        }
        assert vs[..i + 1] == vs[..i] + [v];
      }
      assert vs[..|vs|] == vs;
      assert (set id | id in ids) == Unflagged();
      DistinctElementCount(ids);
    }

    /**
     * playRandomVideo: plays the unflagged video at `index` in the order the
     * catalog lists them (the source draws the index at random).
     */
    method PlayRandomVideo(index: nat) returns (out: seq<Message>)
      requires Valid()
      requires |Unflagged()| == 0 || index < |Unflagged()|
      modifies this`current, this`paused
      ensures Valid()
      ensures |Unflagged()| == 0 ==> out == [NoVideosAvailable] && current == old(current) && paused == old(paused)
      ensures |Unflagged()| > 0 ==>
                && current != null && current.id in Unflagged() && !paused
                && out == (if old(current) == null then [] else [Stopping(old(current).title)]) + [Playing(current.title)]
    {
      if |library.videos| == 0 {
        assert Unflagged() == {};
        return [NoVideosAvailable];
      }
      var ids := UnflaggedIds();
      if |ids| == 0 {
        out := [NoVideosAvailable];
      } else {
        assert ids[index] in Unflagged();
        out := PlayVideo(ids[index]);
      }
    }

    /** pauseVideo: an error when nothing is current; pausing twice reports it and changes nothing. */
    method PauseVideo() returns (out: seq<Message>)
      requires Valid()
      modifies this`paused
      ensures Valid()
      ensures current == old(current)
      ensures current == null ==> out == [Cannot(Pause, NoVideoPlaying)] && paused == old(paused)
      ensures current != null ==> paused && out == [if old(paused) then AlreadyPaused(current.title) else Pausing(current.title)]
    {
      if current == null {
        out := [Cannot(Pause, NoVideoPlaying)];
      } else if !paused {
        paused := true;
        out := [Pausing(current.title)];
      } else {
        out := [AlreadyPaused(current.title)];
      }
    }

    /** continueVideo: errors when nothing is current or it is not paused; otherwise resumes. */
    method ContinueVideo() returns (out: seq<Message>)
      requires Valid()
      modifies this`paused
      ensures Valid()
      ensures current == old(current) && !paused
      ensures current == null ==> out == [Cannot(Continue, NoVideoPlaying)]
      ensures current != null && !old(paused) ==> out == [Cannot(Continue, NotPaused)]
      ensures current != null && old(paused) ==> out == [Continuing(current.title)]
    {
      if current == null {
        out := [Cannot(Continue, NoVideoPlaying)];
      } else if !paused {
        out := [Cannot(Continue, NotPaused)];
      } else {
        paused := false;
        out := [Continuing(current.title)];
      }
    }

    /** showPlaying: the current video and whether it is paused, or that nothing plays. */
    method ShowPlaying() returns (out: seq<Message>)
      requires Valid()
      ensures current == null ==> out == [NothingPlaying]
      ensures current != null ==> out == [CurrentlyPlaying(ListingOf(current), paused)] && !out[0].video.flagged
    {
      if current == null {
        out := [NothingPlaying];
      } else {
        out := [CurrentlyPlaying(ListingOf(current), paused)];
      }
    }

    // -------------------------------------------------------------------
    // Playlists
    // -------------------------------------------------------------------

    /** retrievePlaylist: the playlist whose name equals `name` ignoring case, or null. */
    method RetrievePlaylist(name: string) returns (p: VideoPlaylist?)
      requires Valid()
      ensures p == null <==> forall k :: k in playlists ==> !EqualsIgnoreCase(k, name)
      ensures p != null ==> p.name in playlists && playlists[p.name] == p && EqualsIgnoreCase(p.name, name)
    {
      var todo := playlists.Keys;
      while todo != {}
        invariant todo <= playlists.Keys
        invariant forall k :: k in playlists && k !in todo ==> !EqualsIgnoreCase(k, name)
        decreases |todo|
      {
        var k :| k in todo;
        if EqualsIgnoreCase(k, name) {
          return playlists[k];
        }
        todo := todo - {k};
      }
      return null;
    }

    /** createPlaylist: refused when a name equal ignoring case exists; otherwise adds an empty playlist under `name` as given. */
    method CreatePlaylist(name: string) returns (out: seq<Message>)
      requires Valid()
      modifies this`playlists
      ensures Valid()
      ensures old(KeyFor(name)).Some? ==> out == [Cannot(Create, PlaylistExists)] && playlists == old(playlists)
      ensures old(KeyFor(name)).None? ==>
                && out == [PlaylistCreated(name)]
                && name in playlists && fresh(playlists[name])
                && playlists == old(playlists)[name := playlists[name]]
                && Contents() == old(Contents())[name := []]
    {
      var p := RetrievePlaylist(name);
      if p != null {
        KeyForIsTheMatch(name, p.name);
        out := [Cannot(Create, PlaylistExists)];
      } else {
        var created := new VideoPlaylist(name);
        playlists := playlists[name := created];
        forall k, k' | k in playlists && k' in playlists && EqualsIgnoreCase(k, k') ensures k == k' {
          EqualsIgnoreCaseIsEquivalence(k, k', name);
        }
        out := [PlaylistCreated(name)];
      }
    }

    /**
     * addVideoToPlaylist: checks that the playlist exists, the video exists,
     * the video is not flagged and is not already in the playlist, in that
     * order; then appends it.
     */
    method AddVideoToPlaylist(name: string, id: string) returns (out: seq<Message>)
      requires Valid()
      modifies playlists.Values
      ensures Valid()
      ensures KeyFor(name).None? ==> out == [Cannot(AddTo(name), PlaylistMissing)] && Contents() == old(Contents())
      ensures KeyFor(name).Some? && id !in library.videos ==>
                out == [Cannot(AddTo(name), VideoMissing)] && Contents() == old(Contents())
      ensures KeyFor(name).Some? && id in library.videos && library.videos[id].flagged ==>
                out == [Cannot(AddTo(name), VideoIsFlagged(library.videos[id].reason))] && Contents() == old(Contents())
      ensures KeyFor(name).Some? && Playable(id) && library.videos[id] in old(Contents())[KeyFor(name).value] ==>
                out == [Cannot(AddTo(name), AlreadyAdded)] && Contents() == old(Contents())
      ensures KeyFor(name).Some? && Playable(id) && library.videos[id] !in old(Contents())[KeyFor(name).value] ==>
                && out == [VideoAdded(name, library.videos[id].title)]
                && Contents() == old(Contents())[KeyFor(name).value := old(Contents())[KeyFor(name).value] + [library.videos[id]]]
    {
      var vp := RetrievePlaylist(name);
      if vp == null {
        out := [Cannot(AddTo(name), PlaylistMissing)];
        return;
      }
      KeyForIsTheMatch(name, vp.name);
      var v := library.GetVideo(id);
      if v == null {
        out := [Cannot(AddTo(name), VideoMissing)];
      } else if v.flagged {
        out := [Cannot(AddTo(name), VideoIsFlagged(v.reason))];
      } else if v !in vp.videos {
        vp.Append(v);
        out := [VideoAdded(name, v.title)];
        assert Contents() == old(Contents())[vp.name := old(Contents())[vp.name] + [v]];
      } else {
        out := [Cannot(AddTo(name), AlreadyAdded)];
      }
    }

    /** showAllPlaylists: the stored names in ascending order, or that there are none. */
    method ShowAllPlaylists() returns (out: seq<Message>)
      requires Valid()
      ensures playlists == map[] ==> out == [NoPlaylistsYet]
      ensures playlists != map[] ==>
                && |out| == 1 && out[0].AllPlaylists?
                && SortedBy(out[0].names, Itself) && NoDuplicates(out[0].names)
                && forall k :: k in out[0].names <==> k in playlists
    {
      if playlists == map[] {
        return [NoPlaylistsYet];
      }
      var todo := playlists.Keys;
      var names: seq<string> := [];
      while todo != {}
        invariant todo <= playlists.Keys
        invariant NoDuplicates(names)
        invariant forall k :: k in names <==> k in playlists && k !in todo
        decreases |todo|
      {
        var k :| k in todo;
        names := names + [k];
        todo := todo - {k};
      }
      var sorted := SortBy(names, Itself);
      SortByIsSortedPermutation(names, Itself);
      PermutationOfDistinct(names, sorted);
      out := [AllPlaylists(sorted)];
    }

    /** showPlaylist: the playlist's videos in order, flagged ones marked; an error when it does not exist. */
    method ShowPlaylist(name: string) returns (out: seq<Message>)
      requires Valid()
      ensures KeyFor(name).None? ==> out == [Cannot(Show(name), PlaylistMissing)]
      ensures KeyFor(name).Some? ==> out == [PlaylistShown(name, Listings(Contents()[KeyFor(name).value]))]
    {
      var vp := RetrievePlaylist(name);
      if vp == null {
        out := [Cannot(Show(name), PlaylistMissing)];
      } else {
        KeyForIsTheMatch(name, vp.name);
        out := [PlaylistShown(name, Listings(vp.videos))];
      }
    }

    /**
     * removeFromPlaylist: checks that the playlist exists, the video exists
     * and is in the playlist, in that order; then deletes it, keeping the
     * order of the others.
     */
    method RemoveFromPlaylist(name: string, id: string) returns (out: seq<Message>)
      requires Valid()
      modifies playlists.Values
      ensures Valid()
      ensures KeyFor(name).None? ==> out == [Cannot(RemoveFrom(name), PlaylistMissing)] && Contents() == old(Contents())
      ensures KeyFor(name).Some? && id !in library.videos ==>
                out == [Cannot(RemoveFrom(name), VideoMissing)] && Contents() == old(Contents())
      ensures KeyFor(name).Some? && id in library.videos && library.videos[id] !in old(Contents())[KeyFor(name).value] ==>
                out == [Cannot(RemoveFrom(name), NotInPlaylist)] && Contents() == old(Contents())
      ensures KeyFor(name).Some? && id in library.videos && library.videos[id] in old(Contents())[KeyFor(name).value] ==>
                && out == [VideoRemoved(name, library.videos[id].title)]
                && Contents() == old(Contents())[KeyFor(name).value := RemoveFirst(old(Contents())[KeyFor(name).value], library.videos[id])]
                && library.videos[id] !in Contents()[KeyFor(name).value]
    {
      var vp := RetrievePlaylist(name);
      if vp == null {
        out := [Cannot(RemoveFrom(name), PlaylistMissing)];
        return;
      }
      KeyForIsTheMatch(name, vp.name);
      var v := library.GetVideo(id);
      if v == null {
        out := [Cannot(RemoveFrom(name), VideoMissing)];
      } else if v !in vp.videos {
        out := [Cannot(RemoveFrom(name), NotInPlaylist)];
      } else {
        ghost var before := vp.videos;
        vp.Remove(v);
        out := [VideoRemoved(name, v.title)];
        RemoveFirstFromDistinct<Video>(before, v);
      }
    }

    /** clearPlaylist: empties the playlist, which goes on existing; an error when it does not exist. */
    method ClearPlaylist(name: string) returns (out: seq<Message>)
      requires Valid()
      modifies playlists.Values
      ensures Valid()
      ensures KeyFor(name).None? ==> out == [Cannot(Clear(name), PlaylistMissing)] && Contents() == old(Contents())
      ensures KeyFor(name).Some? ==>
                out == [PlaylistCleared(name)] && Contents() == old(Contents())[KeyFor(name).value := []]
    {
      var vp := RetrievePlaylist(name);
      if vp == null {
        out := [Cannot(Clear(name), PlaylistMissing)];
      } else {
        KeyForIsTheMatch(name, vp.name);
        vp.Clear();
        out := [PlaylistCleared(name)];
        assert Contents() == old(Contents())[vp.name := []];
      }
    }

    /** deletePlaylist: removes the playlist matching `name` ignoring case and no other; an error when there is none. */
    method DeletePlaylist(name: string) returns (out: seq<Message>)
      requires Valid()
      modifies this`playlists
      ensures Valid()
      ensures old(KeyFor(name)).None? ==> out == [Cannot(Delete(name), PlaylistMissing)] && playlists == old(playlists)
      ensures old(KeyFor(name)).Some? ==>
                && out == [PlaylistDeleted(name)]
                && playlists == old(playlists) - {old(KeyFor(name)).value}
                && Contents() == old(Contents()) - {old(KeyFor(name)).value}
    {
      var vp := RetrievePlaylist(name);
      if vp == null {
        out := [Cannot(Delete(name), PlaylistMissing)];
        return;
      }
      KeyForIsTheMatch(name, vp.name);
      var key := vp.name;
      forall k | k in playlists && EqualsIgnoreCase(k, name) ensures k == key {
        EqualsIgnoreCaseIsEquivalence(k, name, key);
      }
      ghost var before := playlists;
      var todo := playlists.Keys;
      while todo != {}
        invariant todo <= before.Keys
        invariant playlists == if key in todo then before else before - {key}
        decreases |todo|
      {
        var k :| k in todo;
        if EqualsIgnoreCase(k, name) {
          playlists := playlists - {k};
        }
        todo := todo - {k};
      }
      assert forall k :: k in playlists ==> k in before && playlists[k] == before[k];
      out := [PlaylistDeleted(name)];
    }

    // -------------------------------------------------------------------
    // Search
    // -------------------------------------------------------------------

    /** `results` is every unflagged catalog video matching `term`, each once, ordered by title. */
    ghost predicate Found(results: seq<Video>, term: string, crit: Criterion)
      reads library.videos.Values
    {
      && SortedBy(results, TitleOf) && NoDuplicates(results)
      && (forall v :: v in results ==> v in library.videos.Values && !v.flagged && Matches(v, term, crit))
      && (forall v :: v in library.videos.Values && !v.flagged && Matches(v, term, crit) ==> v in results)
    }

    /** The filter and sort of searchVideosBy: unflagged matching catalog videos, ordered by title. */
    method MatchingVideos(term: string, crit: Criterion) returns (results: seq<Video>)
      requires Valid()
      ensures Found(results, term, crit)
    {
      var vs := library.GetVideos();
      var found: seq<Video> := [];
      for i := 0 to |vs|
        invariant NoDuplicates(found)
        invariant forall v :: v in found <==> v in vs[..i] && !v.flagged && Matches(v, term, crit)
      {
        var v := vs[i];
        assert v !in vs[..i];
        if !v.flagged && Matches(v, term, crit) {
          found := found + [v];
        }
        assert vs[..i + 1] == vs[..i] + [v];
      }
      assert vs[..|vs|] == vs;
      results := SortBy(found, TitleOf);
      SortByIsSortedPermutation(found, TitleOf);
      PermutationOfDistinct(found, results);
      assert multiset(results) == multiset(found);
      forall v | v in results ensures v in library.videos.Values && !v.flagged && Matches(v, term, crit) {
        assert v in multiset(results);
        assert v in found;
      }
    }

    /**
     * searchVideosBy: lists the matches and then plays the one the user
     * picks by its 1-based position `choice`; any other choice (the source
     * reads a number and takes non-numbers as 0) plays nothing.
     */
    method SearchVideosBy(term: string, crit: Criterion, choice: int) returns (results: seq<Video>, out: seq<Message>)
      requires Valid()
      modifies this`current, this`paused
      ensures Valid()
      ensures |library.videos| == 0 ==> results == [] && out == [NoVideosAvailable]
      ensures |library.videos| > 0 ==> Found(results, term, crit)
      ensures |library.videos| > 0 && results == [] ==> out == [NoSearchResults(term)]
      ensures 1 <= choice <= |results| ==>
                && current == results[choice - 1] && !paused && Matches(current, term, crit)
                && out == [SearchResults(term, Listings(results))]
                          + ((if old(current) == null then [] else [Stopping(old(current).title)])
                          + [Playing(current.title)])
      ensures !(1 <= choice <= |results|) ==> current == old(current) && paused == old(paused)
      ensures results != [] && !(1 <= choice <= |results|) ==> out == [SearchResults(term, Listings(results))]
    {
      if |library.videos| == 0 {
        return [], [NoVideosAvailable];
      }
      results := MatchingVideos(term, crit);
      if results == [] {
        out := [NoSearchResults(term)];
      } else {
        var played := PlayChosen(results, choice);
        if 1 <= choice <= |results| {
          assert results[choice - 1] in results;
        }
        out := [SearchResults(term, Listings(results))] + played;
      }
    }

    /** The last step of searchVideosBy: plays result number `choice` (1-based) if there is one. */
    method PlayChosen(results: seq<Video>, choice: int) returns (out: seq<Message>)
      requires Valid()
      requires forall v :: v in results ==> v in library.videos.Values && !v.flagged
      modifies this`current, this`paused
      ensures Valid()
      ensures 1 <= choice <= |results| ==>
                && current == results[choice - 1] && !paused
                && out == (if old(current) == null then [] else [Stopping(old(current).title)]) + [Playing(current.title)]
      ensures !(1 <= choice <= |results|) ==> current == old(current) && paused == old(paused) && out == []
    {
      out := [];
      if 0 < choice <= |results| {
        var chosen := results[choice - 1];
        assert chosen in results;
        library.StoredUnderOwnId(chosen);
        out := PlayVideo(chosen.id);
      }
    }

    // -------------------------------------------------------------------
    // Moderation
    // -------------------------------------------------------------------

    /**
     * flagVideo: silent on an empty catalog; refuses an unknown or already
     * flagged video; otherwise stops it if it is current and flags it with
     * the reason, or the default reason when none is given.
     */
    method FlagVideo(id: string, reason: Option<string>) returns (out: seq<Message>)
      requires Valid()
      modifies this`current, this`paused, library.videos.Values
      ensures Valid()
      ensures forall v :: v in library.videos.Values && v.id != id ==> v.flagged == old(v.flagged) && v.reason == old(v.reason)
      ensures id !in library.videos ==> current == old(current) && paused == old(paused)
      ensures |library.videos| == 0 ==> out == []
      ensures |library.videos| > 0 && id !in library.videos ==> out == [Cannot(Flag, VideoMissing)]
      ensures id in library.videos && old(library.videos[id].flagged) ==>
                && out == [Cannot(Flag, AlreadyFlagged)]
                && library.videos[id].flagged && library.videos[id].reason == old(library.videos[id].reason)
                && current == old(current) && paused == old(paused)
      ensures id in library.videos && !old(library.videos[id].flagged) ==>
                && library.videos[id].flagged
                && library.videos[id].reason == Some(if reason.None? then DefaultReason else reason.value)
                && (old(current) == library.videos[id] ==> current == null && !paused)
                && (old(current) != library.videos[id] ==> current == old(current) && paused == old(paused))
                && out == (if old(current) == library.videos[id] then [Stopping(library.videos[id].title)] else [])
                          + [VideoFlagged(library.videos[id].title, library.videos[id].reason)]
    {
      out := [];
      if |library.videos| > 0 {
        var v := library.GetVideo(id);
        if v == null {
          out := [Cannot(Flag, VideoMissing)];
        } else if v.flagged {
          out := [Cannot(Flag, AlreadyFlagged)];
        } else {
          if current == v {
            out := StopVideo();
          }
          v.Flag(reason);
          out := out + [VideoFlagged(v.title, v.reason)];
        }
      }
    }

    /**
     * allowVideo: silent on an empty catalog; refuses an unknown or
     * unflagged video; otherwise clears its flag. Playback is untouched.
     */
    method AllowVideo(id: string) returns (out: seq<Message>)
      requires Valid()
      modifies library.videos.Values
      ensures Valid()
      ensures forall v :: v in library.videos.Values && v.id != id ==> v.flagged == old(v.flagged) && v.reason == old(v.reason)
      ensures |library.videos| == 0 ==> out == []
      ensures |library.videos| > 0 && id !in library.videos ==> out == [Cannot(Allow, VideoMissing)]
      ensures id in library.videos && !old(library.videos[id].flagged) ==>
                out == [Cannot(Allow, NotFlagged)] && !library.videos[id].flagged
                && library.videos[id].reason == old(library.videos[id].reason)
      ensures id in library.videos && old(library.videos[id].flagged) ==>
                !library.videos[id].flagged && out == [VideoAllowed(library.videos[id].title)]
    {
      out := [];
      if |library.videos| > 0 {
        var v := library.GetVideo(id);
        if v == null {
          out := [Cannot(Allow, VideoMissing)];
        } else if v.flagged {
          v.Unflag();
          out := [VideoAllowed(v.title)];
        } else {
          out := [Cannot(Allow, NotFlagged)];
        }
      }
    }
  }
}

=== FILE: video_playlist.dfy ===
/**
 * A named playlist holding an ordered list of videos. The list is handed
 * out by reference and changed in place by the player, so its three
 * in-place changes (append, remove, clear) are methods of the playlist.
 */
module Playlists {
  import opened Videos
  import opened Lists

  class VideoPlaylist {
    const name: string
    var videos: seq<Video>

    /** A new playlist has the given name and no videos. */
    constructor (name: string)
      ensures this.name == name && videos == []
    {
      this.name := name;
      videos := [];
    }

    /** List.add: append at the end. */
    method Append(v: Video)
      modifies this
      ensures videos == old(videos) + [v]
    {
      videos := videos + [v];
    }

    /** List.remove(Object): drop the first occurrence of `v`. */
    method Remove(v: Video)
      modifies this
      ensures videos == RemoveFirst(old(videos), v)
    {
      videos := RemoveFirst(videos, v);
    }

    /** List.clear. */
    method Clear()
      modifies this
      ensures videos == []
    {
      videos := [];
    }
  }
}

=== FILE: wrappers.dfy ===
/** Optional values: the model's stand-in for a Java reference that may be null. */
module Wrappers {

  datatype Option<+T> = None | Some(value: T)
}
